=== FILE: README.md ===
# ContentGPT bot: quota store, generation flows and payments in Dafny

ContentGPT is a Telegram bot that writes social-media posts, stories, ideas
and photo captions with a language model. The project models four parts of it
with immutable datatypes and pure functions:

- **The entitlement and quota store** (`store.dfy`). It holds users, one
  settings row per user, per-day generation counters, payments, the
  generation history and saved content. Every user has a subscription tier.
  Each tier comes from the plan registry (`plans.dfy`) and grants a daily
  allowance. The quota check lets administrators through and compares
  everyone else's count for today with their allowance.
- **The generation flows** (`conversation.dfy`). Each user has a state
  machine. A `gen:<kind>` choice passes a quota pre-check and enters the
  first state of its flow. The collection steps store the topic, style,
  audience or photo. The final step of each flow checks the quota again and
  calls the generator. Only a non-empty text is counted, exactly once, then
  recorded, and the session ends. The content callbacks regenerate, edit or
  save the last item. A dispatcher routes events the way the handlers'
  filters do. Prompts are modelled by what goes into them (`prompts.dfy`),
  not by their wording.
- **Payments** (`payments.dfy`):
  - creating a YooKassa card payment, which records a pending row;
  - the "I have paid" check, which polls the provider's status;
  - the Telegram Stars invoice and its success message.
- **The older `Database` class** (`legacy_db.dfy`). It keeps a per-user
  daily message counter that rolls over on a new day. Settings are boolean
  switches written through a field whitelist. It also keeps bonus points,
  referrals and payment totals.

SQLite tables are maps keyed by user id, or sequences for append-only
tables. A statement that matches no row leaves the store unchanged. The
clock (`now` in seconds, `today` as a day number), the configured
administrator id and the answers of the generator and the payment providers
are parameters of each operation.

Four behaviours of the code are easy to get wrong; the model follows the
code:
- A subscription's end date is written but never read, so an expired
  subscription keeps its tier.
- There is no command that cancels a flow.
- An administrator's final step still increments the counter.
- The payment check has no exactly-once guard. The Findings table below
  records this and models the guarded version next to it.

## Model

| member | source | states |
|---|---|---|
| Plans.ParseTier | config.py:54-88 | only the four registry keys parse, each to the tier registered under it |
| Plans.Lookup | config.py:54-88 | a key has a plan exactly when it is one of the tier keys, and then it is that tier's row |
| Plans.LookupOrFree | main.py:286 | a tier's key gets that tier's plan and any other key the free plan; either way the plan has a monthly limit and no daily limit entry |
| Plans.ExactlyFourTiers | config.py:54-88 | the registry holds exactly the keys free, basic, premium and vip |
| Plans.KeyRoundTrip | config.py:54-88 | parsing a tier's key gives the tier back |
| Plans.LimitsIncreaseWithTier | config.py:61-85 | every plan has a limit, and limits strictly increase from free to vip (5 < 100 < 500 < 9999) |
| Plans.PricesIncreaseWithTier | config.py:59-83 | prices strictly increase from free to vip (0 < 79 < 159 < 229) |
| Plans.OnlyFreeIsFree | config.py:59-83 | free is the only plan whose price is not positive |
| Plans.PriceIsRoublePrice | config.py:59-84 | every plan's price equals its rouble price |
| Plans.NoDailyLimitEntry | config.py:55-88 | no plan carries a daily limit entry |
| Prompts.TrimLeft | main.py:1187 | the result is a suffix of the input with no leading space, and everything dropped was whitespace |
| Prompts.TrimRight | main.py:1187 | the result is a prefix of the input with no trailing space, and everything dropped was whitespace |
| Prompts.Strip | main.py:1187 | the stripped text is a contiguous slice of the input with no whitespace at either end, everything cut off on either side is whitespace, and text without whitespace is unchanged |
| Store.GetOrCreateUser | main.py:198-223 | an existing user is left alone; a new one gets a free row and the default settings row; a settings row without a user makes the insert fail and leaves the store unchanged; one row per user per table is kept |
| Store.GetOrCreateUserIdempotent | main.py:198-223 | a second call with any profile hints changes nothing |
| Store.GetUserInfo | main.py:242-269 | an unknown user gets nothing; a stored user's row comes back with its own values where the columns are non-empty, and "не указан", "Пользователь" and "free" for an empty username, first name and tier |
| Store.CreatedUserInfo | main.py:198-269 | a user created on first contact without profile names reads back as a free user with both display defaults, no subscription end, no bonus and no administrator flag |
| Store.AdminStatusIsStoredFlag | main.py:225-240 | without a configured administrator id, a user is an administrator exactly when the user info reports the flag; the configured id is always an administrator; creating a user makes nobody an administrator |
| Store.RegistryAllowanceIsMonthlyLimit | main.py:271-277 | every registered plan has a limit entry, and the allowance the quota check derives from it is the plan's monthly limit |
| Store.LimitOf | main.py:284-287 | a user's allowance is their tier's limit; unknown users, an empty tier and tiers that are not plan keys get the free limit; the allowance is always one of 5, 100, 500, 9999 |
| Store.CheckGenerationLimit | main.py:279-305 | administrators always pass, with usage 0 and limit 999999; anyone else passes exactly when one more generation still fits in their allowance today, and gets back today's count and that allowance |
| Store.IncrementGenerationCounter | main.py:307-338 | today's count for the user goes up by one and no other counter moves; a missing user is created first; other tables are unchanged |
| Store.SameUsersSameEntitlements | main.py:225-240 | allowances and administrator status depend on the users table alone |
| Store.IncrementKeepsEntitlements | main.py:307-338 | counting a generation, even one that creates the user, changes nobody's allowance or administrator status |
| Store.CheckThenIncrementStaysWithinLimit | main.py:279-338 | a passing check followed by one count stays within the allowance; a failing check means the allowance is used up |
| Store.ToggleNotification | main.py:414-437 | an unknown field or a missing row changes nothing and reports false; otherwise only that switch flips (non-zero to 0, 0 to 1) and the result is whether it is now on |
| Store.GetNotifications | main.py:439-457 | the three switches of the row, or all on without a row |
| Store.ToggleTwiceRestores | main.py:414-437 | toggling a 0/1 switch twice gives back the original store |
| Store.ToggleReportsNewSwitch | main.py:414-457 | the value a toggle reports is the one the settings read back afterwards |
| Store.UserStyle | main.py:387-398 | the stored author style when it is non-empty, else none |
| Store.SaveUserStyle | main.py:400-412 | the style is written into an existing settings row and read back by the style lookup; without a row nothing changes |
| Store.SaveGeneration | main.py:340-352 | exactly one history row is appended and nothing else changes |
| Store.SaveContent | main.py:354-366 | exactly one saved-content row is appended and nothing else changes |
| Store.UpdateSubscription | main.py:459-474 | an existing user's tier is overwritten and the end is set `days` days after now; nothing else changes; an unknown user is left out |
| Store.LaterSubscriptionWins | main.py:459-474 | a later subscription update replaces an earlier one entirely |
| Conversation.SetState | main.py:1164 | the user's state changes, their collected data is kept, other users are untouched |
| Conversation.Advance | main.py:1187-1197 | the user's data and state are replaced; nobody else's session, the store and the cache are untouched |
| Conversation.Clear | main.py:1262 | the user's state and data are both dropped; nothing else changes |
| Conversation.EntryState | main.py:1160-1178 | exactly the five kinds open a flow, each its own first state: post the topic, caption the photo, story the vector, ideas the theme, style the examples |
| Conversation.GenChoiceOpensItsOwnFlow | main.py:1160-1431 | the flow a `gen:` kind opens ends, once every collection step has its input, in a final state whose request is recorded under that kind, `style_analysis` for style |
| Conversation.RequestFor | main.py:1228-1431 | only the style analysis saves an author style; a post is asked for with exactly the collected topic, audience, style and the stripped call to action; story, ideas and caption are recorded under their own kind with a prompt from the stripped input and the stored author style; the style analysis uses the stripped examples alone; an edit uses the remembered prompt and kind |
| Conversation.GenRouter | main.py:1150-1180 | a denied pre-check or a kind other than post, caption, story, ideas, style changes nothing; otherwise the user enters that kind's own first state with their data kept; nobody else's session moves and nothing is counted or stored |
| Conversation.PostTopicStep | main.py:1184-1197 | the topic, with surrounding whitespace removed, is stored, every other collected field is kept, and the user is asked for the style; other sessions, the store and the cache are untouched; a message without text changes nothing |
| Conversation.PostStyleStep | main.py:1199-1207 | the chosen style is stored, every other collected field is kept, and the user is asked for the audience; other sessions, the store and the cache are untouched |
| Conversation.PostAudienceStep | main.py:1209-1215 | the audience, with surrounding whitespace removed, is stored, every other collected field is kept, and the user is asked for the call to action; other sessions, the store and the cache are untouched; a message without text changes nothing |
| Conversation.CaptionPhotoStep | main.py:1344-1354 | without a photo nothing changes; with one the photo id is stored, the other collected fields are kept, and the user is asked what the caption should say; other sessions, the store and the cache are untouched |
| Conversation.FinalStep | main.py:1217-1262 | a failed re-check ends the session and counts nothing; a message without text changes nothing; an empty generation ends the session and counts nothing; a generated text is counted exactly once for the user today, no other counter moves, and the session ends; a style analysis stores the text as the author style, any other request appends one history row with its kind, prompt and text and caches the same item; payments, saved content and other users' sessions never change |
| Conversation.Regenerate | main.py:1453-1479 | without a last item, a passing check or a generated text nothing changes; otherwise one generation is counted, one history row with the cached kind and prompt and the new text is appended, and the cached text is replaced; sessions, payments and saved content are untouched |
| Conversation.StartEdit | main.py:1481-1498 | with a last item the user waits for an edit, remembering that item's prompt and kind and keeping every other collected field; other sessions, the store and the cache are untouched; without one nothing changes |
| Conversation.SaveLast | main.py:1440-1451 | the last item is appended to the saved content unchanged and no other table changes; without one nothing changes; sessions and the cache are untouched |
| Conversation.Dispatch | main.py:1150-1531 | a message while idle or while a style choice is awaited, and a style choice outside that state, change nothing; an event never touches another user's session or the payments, and never removes a user; where each event goes is stated by CollectionStepsAdvance, FinalMessageCounts and the three content-callback lemmas |
| Conversation.CollectionStepsAdvance | main.py:1184-1215 | the post flow advances topic, style, audience, call to action, and the caption flow from photo to task |
| Conversation.CaptionWithoutPhotoStays | main.py:1344-1350 | in the photo step a message without a photo changes nothing |
| Conversation.FinalStepEndsSession | main.py:1217-1262 | once its input has text, a final step always leaves the user idle, whatever the quota or the generator did |
| Conversation.RegenRequestCounts | main.py:1453-1479 | `content:regen` with a cached item, a passing check and a generated text counts one generation and caches the new text; sessions are untouched |
| Conversation.EditRequestWaits | main.py:1481-1498 | `content:edit` with a cached item puts the user in the edit-waiting state holding that item's prompt and kind; the store is untouched |
| Conversation.SaveRequestSaves | main.py:1440-1451 | `content:save` with a cached item appends exactly that item to the saved content and counts nothing |
| Conversation.DispatchKeepsSessionsWf | main.py:1150-1531 | every event keeps every session's data consistent with its state |
| Conversation.PostPromptUsesCollectedFields | main.py:1228-1246 | a post that went through its flow is generated from exactly the collected topic, audience and style |
| Conversation.DispatchKeepsStoreWf | main.py:198-223 | every event keeps one settings row per user |
| Conversation.DispatchCountsAtMostOne | main.py:1217-1531 | an event counts at most one generation, only for its user today, and only after a passing check and a non-empty generation |
| Conversation.DispatchKeepsEntitlements | main.py:1150-1531 | no event changes anyone's allowance or administrator status |
| Conversation.RunStaysWithinLimit | main.py:279-338 | one user's generation-flow events on one day, handled one at a time and with no payment in between, never take a non-administrator past their daily allowance |
| Conversation.RepeatAdmitsUpToLimit | main.py:279-338 | a step that counts one exactly while the allowance lasts, repeated n times from c counted, ends with min(c + n, limit) |
| Conversation.RepeatCountsEveryStep | main.py:1217-1262 | a step that always counts one, repeated n times, counts n |
| Conversation.FinalMessageCounts | main.py:1217-1531 | a text message in any final state of any flow, with a generated text, counts one generation exactly when the re-check passes, and leaves the user idle |
| Conversation.StoryAttemptCounts | main.py:1266-1301 | one story attempt by an idle non-administrator counts one exactly when the allowance is not used up, leaves them idle, and keeps their allowance |
| Conversation.StoryAttemptsAdmitUpToLimit | main.py:1266-1301 | n successful story attempts from c of L used end with min(c + n, L) counted |
| Conversation.AdminStoryAttemptCounts | main.py:1266-1301 | an administrator's story attempt always passes and is still counted |
| Conversation.AdminAttemptsAllCount | main.py:1266-1301 | n successful attempts by an administrator add exactly n to the counter |
| Payments.PriceOf | main.py:947-952 | a tier's key is sold at that tier's price, any other key has no price, and no price is negative |
| Payments.PayYookassa | main.py:941-1003 | unknown plans and non-positive prices are refused; a pending yookassa row at the plan's price in RUB is recorded exactly when the provider returned both a payment id and a link; otherwise nothing changes |
| Payments.FreePlanIsRefused | main.py:953-956 | the free plan is refused for its price and never reaches the provider |
| Payments.PaidTiersRecordPendingRow | main.py:953-984 | every paid tier reaches the provider, and a complete answer records one pending row at that tier's price |
| Payments.MarkCompleted | main.py:1032-1039 | exactly the user's yookassa rows with that payment id become completed; other rows are untouched |
| Payments.MarkCompletedTwice | main.py:1032-1039 | marking the same rows twice is the same as once |
| Payments.PayYookassaCheck | main.py:1004-1053 | a failed status call or a status other than succeeded or waiting_for_capture changes nothing; otherwise the subscription is overwritten for 30 days and the matching rows are completed |
| Payments.OnlyPaidStatusesActivate | main.py:1017-1028 | the check activates exactly when the provider reports succeeded or waiting_for_capture; a failed call, a missing status, pending or canceled leave the store as it is |
| Payments.CheckGrantsThirtyDays | main.py:1030 | after a confirmed check a registered user holds the button's tier until 30 days after now |
| Payments.RepeatedCheckExtendsSubscription | main.py:1004-1053 | the same check callback handled again d seconds later, as a duplicate or replay, moves the end of the subscription d seconds further |
| Payments.CheckGrantsWithoutPaymentRow | main.py:1004-1053 | a confirmed check grants the button's tier even when the user has no payment row |
| Payments.PendingRow | main.py:1032-1039 | finds a pending matching row when there is one, and reports none only when no row matches |
| Payments.PayYookassaCheckOnce | main.py:1004-1053 | the guarded check acts only on a pending row of this user with this id, grants that row's tier for 30 days and completes the row; otherwise nothing changes |
| Payments.CompletedLeavesNoPendingRow | main.py:1032-1039 | after marking, no matching row is pending |
| Payments.CheckOnceIsIdempotent | main.py:1004-1053 | after the guarded check has activated, every later check of the same payment changes nothing |
| Payments.UnconfirmedCheckKeepsRowPending | main.py:1021-1028 | a check that did not confirm leaves the payment pending for a later press |
| Payments.PayStars | main.py:1055-1094 | a key that is not a tier is refused as unknown, the free tier for its price, and every paid tier gets an invoice in XTR for exactly that tier's price, carrying the key and the buyer; nothing is stored |
| Payments.SuccessfulPayment | main.py:1101-1138 | without a tier in the payload nothing changes; otherwise the subscription is overwritten for 30 days and exactly one completed telegram_stars row in XTR is appended |
| Payments.StarsRoundTrip | main.py:1055-1138 | paying an issued invoice for a paid tier gives the buyer that tier for 30 days and records the plan's price in XTR |
| LegacyDb.NewUser | bot_database_backup.db.py:24-43 | a fresh user row is free, with no messages, no bonus, nothing spent, and active |
| LegacyDb.AddUser | bot_database_backup.db.py:119-142 | the user row and the settings row are each inserted only if missing; existing rows are kept |
| LegacyDb.AddUserIdempotent | bot_database_backup.db.py:125-135 | adding a user twice is the same as once, whatever the second call's names |
| LegacyDb.Whitelisted | bot_database_backup.db.py:177-183 | exactly the whitelisted keywords are kept, with their values |
| LegacyDb.UpdateUserSettings | bot_database_backup.db.py:172-197 | with no whitelisted keyword or no row nothing is written; otherwise exactly the whitelisted switches take the given values, the others keep theirs, and the write time is set |
| LegacyDb.UnknownFieldsAreIgnored | bot_database_backup.db.py:177-183 | keywords outside the whitelist have no effect |
| LegacyDb.IncrementMessages | bot_database_backup.db.py:199-230 | on a new day the day's counter restarts at one, on the same day it grows by one; the lifetime counter grows by one; the date becomes today; an unknown user is left out |
| LegacyDb.IncrementTimesCounts | bot_database_backup.db.py:199-230 | n messages on one day add n to the day's counter when it was already that day, and set it to n otherwise; the lifetime counter grows by n |
| LegacyDb.GetMessagesLimit | bot_database_backup.db.py:241-252 | an unknown user gets 0; a user on a tier's key gets that tier's monthly limit, a user on any other key the free one; the limit is never negative |
| LegacyDb.MessagesLimitIsAPlanLimit | bot_database_backup.db.py:241-252 | every registered user's limit is one of the four plan limits, and an unknown tier gets the free one |
| LegacyDb.CanUseFeature | bot_database_backup.db.py:232-239 | an unknown user may not; otherwise the stored day counter must be below the limit, whatever day it belongs to, so whoever it admits is within the limit on every day |
| LegacyDb.StaleCounterLocksOut | bot_database_backup.db.py:232-239 | a free user who used five messages yesterday is refused on any later day, although nothing has been used that day |
| LegacyDb.UsedOn | bot_database_backup.db.py:210-226 | today's usage is the stored counter only when it belongs to today, else 0, and counting a message today leaves the stored counter one above it |
| LegacyDb.CanUseFeatureOn | bot_database_backup.db.py:232-239 | the day-aware check passes exactly when today's usage is below the limit, and agrees with the stored check when the counter is today's |
| LegacyDb.CountedMessageUsesOne | bot_database_backup.db.py:199-239 | each counted message adds one to today's usage and keeps the limit, so a message is allowed exactly when, once counted, usage stays within the limit |
| LegacyDb.AddBonusPoints | bot_database_backup.db.py:309-323 | the user's bonus grows by exactly the points and nothing else changes; an unknown user is left out |
| LegacyDb.BonusPointsAddUp | bot_database_backup.db.py:309-323 | awarding a and then b is the same as awarding a + b |
| LegacyDb.UpdateSubscription | bot_database_backup.db.py:325-342 | the tier is overwritten and the end is set `days` days after today; an unknown user is left out |
| LegacyDb.LaterSubscriptionWins | bot_database_backup.db.py:325-342 | a later subscription update replaces an earlier one entirely |
| LegacyDb.SubscriptionSetsLimit | bot_database_backup.db.py:241-252 | after subscribing to a tier, the user's limit is that tier's monthly limit |
| LegacyDb.ReferralCount | bot_database_backup.db.py:369-378 | the count is the number of referral rows naming the user as referrer, so never more than the rows |
| LegacyDb.GetReferralCount | bot_database_backup.db.py:369-378 | the number of rows of the referrals table whose referrer is the user |
| LegacyDb.AddReferral | bot_database_backup.db.py:344-367 | one referral row is always appended and the referrer, if known, gets 50 bonus points |
| LegacyDb.ReferralCountsOnce | bot_database_backup.db.py:344-378 | a referral adds one to the referrer's count and to nobody else's |
| LegacyDb.AddPayment | bot_database_backup.db.py:380-404 | exactly one RUB payment row is appended and the user's total spent grows by the amount |
| LegacyDb.TotalSpentTracksPayments | bot_database_backup.db.py:380-404 | when a user's total spent equals the sum of their recorded payments, it still does after another payment |

## Left out

- SQLite connections, WAL pragmas, table creation and the `OperationalError` fallbacks are not modelled. In particular, on a database error the quota check reads a count of 0 (main.py:303).
- Message texts, keyboards, the FastAPI endpoints, the webhook, threads and uvicorn are not modelled: they are user interface and transport. `keyboards.py` is not part of this model.
- The language-model client, the `YandexGPTHandler` class of main.py:520-582 (its `generate` returns the text or `None`), and the YooKassa client `yandex_kassa_handler.py` are not part of this model. Their answers are parameters: `generated` of each step, and the create and status responses of the payment handlers.
- Concurrency is not modelled. aiogram can handle several updates at once; the model handles them one at a time, so the race between a user's check and their increment in two concurrent handlers is not represented.
- Amounts are `REAL` or `float` in the source. The model uses integers, since every plan price is a whole number.
- One `today` serves both the quota check and the increment of a final step. The source reads the date twice, in the check (main.py:289) and again in the increment (main.py:309), with the awaited generator call between them. A check that passes just before midnight can therefore count the generation against the next day, which was never checked.
- `datetime` and `timedelta` are not modelled: `now` and `today` are parameters and a day is `86400` seconds.
- The CSV export, the admin statistics, `get_saved_last` and the legacy `get_statistics`, `add_usage`, `save_content` and `get_saved_content` are not modelled: they are reporting or append-only logging with no property to state.
- Prompts are modelled by their ingredients, not by their wording.
- Commands and the menu buttons registered before the state handlers (main.py:697-928) take priority over them, so the dispatcher's `Incoming` event stands for a message none of them claims. The admin-panel button (main.py:1537) is registered after the state handlers: in a flow state its text is taken as that flow's input, which `Incoming` covers; when idle it shows statistics, which are not modelled. `cmd_start` and the button handlers are not modelled.
- LegacyDb.UpdateUserSettings: settings values are booleans, while the source's `**kwargs` writes whatever value it is given into a whitelisted column.
- Callback data parsing (`split(":")`) is not modelled. Payment ids and tiers arrive already split.
- Plan entries that are present but not integers are modelled as absent.
- The dead early `main()` (main.py:17-23) and the superseded copies under `1/` and `config_old.py` are not modelled.
- Prompts.Strip: treats only space, tab, line feed, carriage return, vertical tab and form feed as spaces. Python's `str.strip` also removes the four ASCII separators `\x1c`-`\x1f` and all non-ASCII whitespace.
- Payments.SuccessfulPayment: a payload whose `sub_type` is not a string is treated like a missing one, while the source would write it as the tier.
- The pre-checkout answer (main.py:1096-1099) always accepts, and has no state to model.

## Findings

| source | as written | input that shows it | evidently intended | confidence | as-written member | corrected member |
|---|---|---|---|---|---|---|
| main.py:1004-1053 | every confirming check of a payment overwrites the subscription to end 30 days from that check, whether or not the payment was already completed | one succeeded payment; the same `pay:ykcheck` callback is delivered twice, as a duplicate handled concurrently or replayed later (the confirming reply at main.py:1041-1046 removes the button, so an ordinary second press is not possible), and the second one moves the end from its first value by the time between them | a payment grants its subscription once; later checks of a completed payment change nothing | medium (not executed) | Payments.RepeatedCheckExtendsSubscription | Payments.PayYookassaCheckOnce |
| main.py:1009-1030 | the check grants the tier named in the callback data without looking for the user's payment row | callback data with another user's succeeded payment id and tier `vip`, from a user with no payment rows | grant only the tier recorded on this user's pending row with that payment id | medium (not executed) | Payments.CheckGrantsWithoutPaymentRow | Payments.PayYookassaCheckOnce |
| bot_database_backup.db.py:232-239 | the allowance check compares the stored day counter, which only `increment_messages` rolls over | a free user with 5 messages on day 1 asks on day 2: refused, and refused on every later day, since only a counted message rolls the counter over | a counter from an earlier day counts as 0 today | medium (not executed) | LegacyDb.StaleCounterLocksOut | LegacyDb.CanUseFeatureOn |

=== FILE: conversation.dfy ===
/**
 The generation flows of the bot as a finite-state machine per user.
 A `gen:<kind>` choice passes a quota pre-check and enters the first state
 of its flow; data-collection states store one field each and advance; the
 final state of every flow re-checks the quota, calls the generator and, only
 when it returned text, counts one generation, records it and ends the
 session. The generator's answer and the clock are inputs of each step.
 */
module Conversation {
  import opened Wrappers
  import opened Prompts
  import Store

  type UserId = Store.UserId

  /** The states of the two aiogram state groups, plus `Idle` for "no state". */
  datatype FlowState =
    | Idle
    | PostTopic | PostStyle | PostAudience | PostCta
    | CaptionPhoto | CaptionTask
    | StoryVector
    | IdeasTheme
    | StyleExamples
    | WaitingEdit

  /** The fields a session collects on the way to its final step. */
  datatype SessionData = SessionData(
    topic: Option<string>,
    style: Option<string>,
    audience: Option<string>,
    photoId: Option<string>,
    editBase: Option<Prompt>,
    editKind: Option<string>)

  const NoData: SessionData := SessionData(None, None, None, None, None, None)

  datatype Session = Session(state: FlowState, data: SessionData)

  /** The last generated item of a user, kept for save, edit and regenerate. */
  datatype Content = Content(kind: string, prompt: Prompt, text: string)

  /** The bot's whole state: the store, the FSM storage and the last-content cache. */
  datatype Bot = Bot(
    store: Store.State,
    sessions: map<UserId, Session>,
    lastContent: map<UserId, Content>)

  /** An incoming chat message: its text, if any, and its largest photo's file id, if any. */
  datatype Message = Message(text: Option<string>, photo: Option<string>)

  /** The events the generation flows react to. */
  datatype Event =
    | GenChoice(kind: string)          // callback `gen:<kind>`
    | PostStyleChoice(style: string)   // callback `poststyle:<style>`
    | Incoming(msg: Message)           // a message no menu button or command claims
    | RegenRequest                     // callback `content:regen`
    | EditRequest                      // callback `content:edit`
    | SaveRequest                      // callback `content:save`

  /** The configured administrator id, today's date and what the generator returned, if it was called. */
  datatype Env = Env(adminId: int, today: Store.Day, generated: Option<string>)

  // ---------------------------------------------------------------------------
  // FSM storage
  // ---------------------------------------------------------------------------

  /** A user's session; a user without one is idle with no data. */
  function SessionOf(b: Bot, uid: UserId): Session
  {
    if uid in b.sessions then b.sessions[uid] else Session(Idle, NoData)
  }

  /** `state.set_state(st)`: the collected data is kept. */
  function SetState(b: Bot, uid: UserId, st: FlowState): (r: Bot)
    ensures SessionOf(r, uid) == Session(st, SessionOf(b, uid).data)
    ensures forall v :: v != uid ==> SessionOf(r, v) == SessionOf(b, v)
    ensures r.store == b.store && r.lastContent == b.lastContent
  {
    b.(sessions := b.sessions[uid := Session(st, SessionOf(b, uid).data)])
  }

  /** `state.update_data(...)` followed by `state.set_state(st)`. */
  function Advance(b: Bot, uid: UserId, data: SessionData, st: FlowState): (r: Bot)
    ensures SessionOf(r, uid) == Session(st, data)
    ensures forall v :: v != uid ==> SessionOf(r, v) == SessionOf(b, v)
    ensures r.store == b.store && r.lastContent == b.lastContent
  {
    b.(sessions := b.sessions[uid := Session(st, data)])
  }

  /** `state.clear()`: state and data are both dropped. */
  function Clear(b: Bot, uid: UserId): (r: Bot)
    ensures SessionOf(r, uid) == Session(Idle, NoData) && uid !in r.sessions
    ensures forall v :: v != uid ==> SessionOf(r, v) == SessionOf(b, v)
    ensures r.store == b.store && r.lastContent == b.lastContent
  {
    b.(sessions := b.sessions - {uid})
  }

  // ---------------------------------------------------------------------------
  // Flow table
  // ---------------------------------------------------------------------------

  /** The first state of each flow a `gen:` choice can open. */
  function EntryState(kind: string): (r: Option<FlowState>)
    ensures r.Some? <==> kind in {"post", "caption", "story", "ideas", "style"}
    ensures r.Some? ==> r.value != Idle
    ensures kind == "post" ==> r == Some(PostTopic)
    ensures kind == "caption" ==> r == Some(CaptionPhoto)
    ensures kind == "story" ==> r == Some(StoryVector)
    ensures kind == "ideas" ==> r == Some(IdeasTheme)
    ensures kind == "style" ==> r == Some(StyleExamples)
  {
    if kind == "post" then Some(PostTopic)
    else if kind == "caption" then Some(CaptionPhoto)
    else if kind == "story" then Some(StoryVector)
    else if kind == "ideas" then Some(IdeasTheme)
    else if kind == "style" then Some(StyleExamples)
    else None
  }

  /** The states whose input triggers a generation. */
  predicate IsFinal(st: FlowState)
  {
    st == PostCta || st == CaptionTask || st == StoryVector || st == IdeasTheme
    || st == StyleExamples || st == WaitingEdit
  }

  /** The quota check of `uid` passes in the store `b` holds. */
  predicate Passes(b: Bot, uid: UserId, env: Env)
  {
    Store.CheckGenerationLimit(b.store, env.adminId, uid, env.today).allowed
  }

  /** What a final step asks the generator for. */
  datatype Request = Request(kind: string, prompt: Prompt, savesStyle: bool)

  /**
   The request of a final state, from the collected data, the stripped input
   and the stored author style. Fields the session never collected take the
   handlers' `data.get` defaults.
   */
  function RequestFor(st: FlowState, data: SessionData, text: string, authorStyle: Option<string>): (r: Request)
    requires IsFinal(st)
    ensures r.savesStyle <==> st == StyleExamples
    ensures st == PostCta && data.topic.Some? && data.style.Some? && data.audience.Some? ==>
      r == Request("post", PostPrompt(data.topic.value, data.audience.value, data.style.value, Strip(text), authorStyle), false)
    ensures st == WaitingEdit && data.editBase.Some? && data.editKind.Some? ==>
      r == Request(data.editKind.value, EditPrompt(data.editBase.value, Strip(text)), false)
    ensures st == StoryVector ==> r == Request("story", StoryPrompt(Strip(text), authorStyle), false)
    ensures st == IdeasTheme ==> r == Request("ideas", IdeasPrompt(Strip(text), authorStyle), false)
    ensures st == CaptionTask ==> r == Request("caption", CaptionPrompt(Strip(text), authorStyle), false)
    ensures st == StyleExamples ==> r == Request("style_analysis", StylePrompt(Strip(text)), true)
  {
    var input := Strip(text);
    if st == PostCta then
      Request("post", PostPrompt(data.topic.GetOr(""), data.audience.GetOr(""), data.style.GetOr("pro"), input, authorStyle), false)
    else if st == StoryVector then Request("story", StoryPrompt(input, authorStyle), false)
    else if st == IdeasTheme then Request("ideas", IdeasPrompt(input, authorStyle), false)
    else if st == CaptionTask then Request("caption", CaptionPrompt(input, authorStyle), false)
    else if st == StyleExamples then Request("style_analysis", StylePrompt(input), true)
    else Request(data.editKind.GetOr("post"), EditPrompt(data.editBase.GetOr(NoPrompt), input), false)
  }

  // ---------------------------------------------------------------------------
  // Handlers
  // ---------------------------------------------------------------------------

  /**
   `gen_router`: a denied pre-check leaves everything as it was; a passing one
   moves the user into the first state of the chosen flow, or does nothing for
   an unknown kind. The pre-check does not count anything.
   */
  function GenRouter(b: Bot, uid: UserId, kind: string, env: Env): (r: Bot)
    ensures !Passes(b, uid, env) ==> r == b
    ensures kind !in {"post", "caption", "story", "ideas", "style"} ==> r == b
    ensures Passes(b, uid, env) && EntryState(kind).Some? ==>
      && SessionOf(r, uid).state == EntryState(kind).value
      && SessionOf(r, uid).data == SessionOf(b, uid).data
      && (forall v :: v != uid ==> SessionOf(r, v) == SessionOf(b, v))
    ensures r.store == b.store && r.lastContent == b.lastContent
  {
    if !Passes(b, uid, env) then b
    else
      match EntryState(kind)
      case None => b
      case Some(st) => SetState(b, uid, st)
  }

  /** `post_topic`: stores the stripped topic and asks for the style. A message without text raises. */
  function PostTopicStep(b: Bot, uid: UserId, msg: Message): (r: Bot)
    ensures msg.text.None? ==> r == b
    ensures msg.text.Some? ==>
      && SessionOf(r, uid).state == PostStyle
      && SessionOf(r, uid).data == SessionOf(b, uid).data.(topic := Some(Strip(msg.text.value)))
      && (forall v :: v != uid ==> SessionOf(r, v) == SessionOf(b, v))
    ensures r.store == b.store && r.lastContent == b.lastContent
  {
    if msg.text.None? then b
    else Advance(b, uid, SessionOf(b, uid).data.(topic := Some(Strip(msg.text.value))), PostStyle)
  }

  /** `post_style`: stores the chosen style and asks for the audience. */
  function PostStyleStep(b: Bot, uid: UserId, style: string): (r: Bot)
    ensures SessionOf(r, uid).state == PostAudience
    ensures SessionOf(r, uid).data == SessionOf(b, uid).data.(style := Some(style))
    ensures forall v :: v != uid ==> SessionOf(r, v) == SessionOf(b, v)
    ensures r.store == b.store && r.lastContent == b.lastContent
  {
    Advance(b, uid, SessionOf(b, uid).data.(style := Some(style)), PostAudience)
  }

  /** `post_audience`: stores the stripped audience and asks for the call to action. */
  function PostAudienceStep(b: Bot, uid: UserId, msg: Message): (r: Bot)
    ensures msg.text.None? ==> r == b
    ensures msg.text.Some? ==>
      && SessionOf(r, uid).state == PostCta
      && SessionOf(r, uid).data == SessionOf(b, uid).data.(audience := Some(Strip(msg.text.value)))
      && (forall v :: v != uid ==> SessionOf(r, v) == SessionOf(b, v))
    ensures r.store == b.store && r.lastContent == b.lastContent
  {
    if msg.text.None? then b
    else Advance(b, uid, SessionOf(b, uid).data.(audience := Some(Strip(msg.text.value))), PostCta)
  }

  /** `caption_photo`: without a photo it re-prompts and stays; with one it stores the file id. */
  function CaptionPhotoStep(b: Bot, uid: UserId, msg: Message): (r: Bot)
    ensures msg.photo.None? ==> r == b
    ensures msg.photo.Some? ==>
      && SessionOf(r, uid).state == CaptionTask
      && SessionOf(r, uid).data == SessionOf(b, uid).data.(photoId := Some(msg.photo.value))
      && (forall v :: v != uid ==> SessionOf(r, v) == SessionOf(b, v))
    ensures r.store == b.store && r.lastContent == b.lastContent
  {
    if msg.photo.None? then b
    else Advance(b, uid, SessionOf(b, uid).data.(photoId := Some(msg.photo.value)), CaptionTask)
  }

  /**
   The common shape of `post_cta`, `story_vector`, `ideas_theme`,
   `caption_task`, `style_examples` and `edit_apply`. The quota is checked
   again first; a denial ends the session and counts nothing. A message
   without text then raises and changes nothing. An empty or missing
   generation ends the session and counts nothing. A generated text is counted
   exactly once, whether or not the user is an administrator, stored (as the
   author style, or in the history and the last-content cache) and the
   session ends.
   */
  function FinalStep(b: Bot, uid: UserId, msg: Message, env: Env): (r: Bot)
    requires IsFinal(SessionOf(b, uid).state)
    ensures !Passes(b, uid, env) ==> r == Clear(b, uid)
    ensures Passes(b, uid, env) && msg.text.None? ==> r == b
    ensures Passes(b, uid, env) && msg.text.Some? && !Truthy(env.generated) ==> r == Clear(b, uid)
    ensures Passes(b, uid, env) && msg.text.Some? && Truthy(env.generated) ==>
      && SessionOf(r, uid) == Session(Idle, NoData)
      && Store.Used(r.store, uid, env.today) == Store.Used(b.store, uid, env.today) + 1
      && (forall u, d :: (u, d) != (uid, env.today) ==> Store.Used(r.store, u, d) == Store.Used(b.store, u, d))
    ensures Passes(b, uid, env) && msg.text.Some? && Truthy(env.generated) ==>
      var req := RequestFor(SessionOf(b, uid).state, SessionOf(b, uid).data, msg.text.value, Store.UserStyle(b.store, uid));
      && (req.savesStyle ==>
            && r.store.history == b.store.history && r.lastContent == b.lastContent
            && (uid in b.store.settings ==> Store.UserStyle(r.store, uid) == Some(env.generated.value)))
      && (!req.savesStyle ==>
            && r.store.history == b.store.history + [Store.Generation(uid, req.kind, req.prompt, env.generated.value)]
            && r.lastContent == b.lastContent[uid := Content(req.kind, req.prompt, env.generated.value)])
    ensures forall v :: v != uid ==> SessionOf(r, v) == SessionOf(b, v)
    ensures r.store.payments == b.store.payments && r.store.saved == b.store.saved
  {
    var check := Store.CheckGenerationLimit(b.store, env.adminId, uid, env.today);
    if !check.allowed then Clear(b, uid)
    else if msg.text.None? then b
    else
      var session := SessionOf(b, uid);
      var req := RequestFor(session.state, session.data, msg.text.value, Store.UserStyle(b.store, uid));
      if !Truthy(env.generated) then Clear(b, uid)
      else
        var text := env.generated.value;
        var counted := Store.IncrementGenerationCounter(b.store, uid, env.today);
        if req.savesStyle then
          Clear(b.(store := Store.SaveUserStyle(counted, uid, text)), uid)
        else
          Clear(b.(store := Store.SaveGeneration(counted, uid, req.kind, req.prompt, text),
                   lastContent := b.lastContent[uid := Content(req.kind, req.prompt, text)]), uid)
  }

  /**
   `content_regen`: needs a last item and a passing check; a generated text
   is counted, recorded in the history and replaces the cached text. The FSM
   session is not involved.
   */
  function Regenerate(b: Bot, uid: UserId, env: Env): (r: Bot)
    ensures uid !in b.lastContent || !Passes(b, uid, env) || !Truthy(env.generated) ==> r == b
    ensures r.sessions == b.sessions
    ensures uid in b.lastContent && Passes(b, uid, env) && Truthy(env.generated) ==>
      && Store.Used(r.store, uid, env.today) == Store.Used(b.store, uid, env.today) + 1
      && (forall u, d :: (u, d) != (uid, env.today) ==> Store.Used(r.store, u, d) == Store.Used(b.store, u, d))
      && r.lastContent == b.lastContent[uid := b.lastContent[uid].(text := env.generated.value)]
      && r.store.history == b.store.history
           + [Store.Generation(uid, b.lastContent[uid].kind, b.lastContent[uid].prompt, env.generated.value)]
    ensures r.store.payments == b.store.payments && r.store.saved == b.store.saved
  {
    if uid !in b.lastContent then b
    else if !Store.CheckGenerationLimit(b.store, env.adminId, uid, env.today).allowed then b
    else if !Truthy(env.generated) then b
    else
      var item := b.lastContent[uid];
      var text := env.generated.value;
      var counted := Store.IncrementGenerationCounter(b.store, uid, env.today);
      b.(store := Store.SaveGeneration(counted, uid, item.kind, item.prompt, text),
         lastContent := b.lastContent[uid := item.(text := text)])
  }

  /** `content_edit`: remembers the last item's prompt and kind and waits for the edit instruction. */
  function StartEdit(b: Bot, uid: UserId): (r: Bot)
    ensures uid !in b.lastContent ==> r == b
    ensures uid in b.lastContent ==>
      && SessionOf(r, uid).state == WaitingEdit
      && SessionOf(r, uid).data.editBase == Some(b.lastContent[uid].prompt)
      && SessionOf(r, uid).data.editKind == Some(b.lastContent[uid].kind)
      && SessionOf(r, uid).data.(editBase := None, editKind := None) == SessionOf(b, uid).data.(editBase := None, editKind := None)
      && r.store == b.store && r.lastContent == b.lastContent
    ensures forall v :: v != uid ==> SessionOf(r, v) == SessionOf(b, v)
  {
    if uid !in b.lastContent then b
    else
      var item := b.lastContent[uid];
      Advance(b, uid, SessionOf(b, uid).data.(editBase := Some(item.prompt), editKind := Some(item.kind)), WaitingEdit)
  }

  /** `content_save`: copies the last item into the saved content. */
  function SaveLast(b: Bot, uid: UserId): (r: Bot)
    ensures uid !in b.lastContent ==> r == b
    ensures uid in b.lastContent ==>
      r.store.saved == b.store.saved + [Store.Generation(uid, b.lastContent[uid].kind, b.lastContent[uid].prompt, b.lastContent[uid].text)]
    ensures r.sessions == b.sessions && r.lastContent == b.lastContent
    ensures r.store == b.store.(saved := r.store.saved)
  {
    if uid !in b.lastContent then b
    else
      var item := b.lastContent[uid];
      b.(store := Store.SaveContent(b.store, uid, item.kind, item.prompt, item.text))
  }

  // ---------------------------------------------------------------------------
  // Dispatcher
  // ---------------------------------------------------------------------------

  /**
   Routes one event of user `uid` the way the handler filters do: style
   choices only in `PostStyle`, messages by the current state (ignored when
   idle or while a style choice is awaited), the content callbacks in any state.
   */
  function Dispatch(b: Bot, uid: UserId, ev: Event, env: Env): (r: Bot)
    ensures ev.Incoming? && SessionOf(b, uid).state in {Idle, PostStyle} ==> r == b
    ensures ev.PostStyleChoice? && SessionOf(b, uid).state != PostStyle ==> r == b
    ensures forall v :: v != uid ==> SessionOf(r, v) == SessionOf(b, v)
    ensures r.store.payments == b.store.payments && r.store.users.Keys >= b.store.users.Keys
  {
    match ev
    case GenChoice(kind) => GenRouter(b, uid, kind, env)
    case PostStyleChoice(style) =>
      if SessionOf(b, uid).state == PostStyle then PostStyleStep(b, uid, style) else b
    case Incoming(msg) =>
      var st := SessionOf(b, uid).state;
      if st == Idle || st == PostStyle then b
      else if st == PostTopic then PostTopicStep(b, uid, msg)
      else if st == PostAudience then PostAudienceStep(b, uid, msg)
      else if st == CaptionPhoto then CaptionPhotoStep(b, uid, msg)
      else FinalStep(b, uid, msg, env)
    case RegenRequest => Regenerate(b, uid, env)
    case EditRequest => StartEdit(b, uid)
    case SaveRequest => SaveLast(b, uid)
  }

  /** The state a data-collection step moves to once its input is accepted. */
  function NextState(st: FlowState): FlowState
  {
    match st
    case PostTopic => PostStyle
    case PostStyle => PostAudience
    case PostAudience => PostCta
    case CaptionPhoto => CaptionTask
    case _ => Idle
  }

  /** The number of collection steps left before a state's flow reaches its final state. */
  function StepsLeft(st: FlowState): nat
  {
    match st
    case PostTopic => 3
    case PostStyle => 2
    case PostAudience => 1
    case CaptionPhoto => 1
    case _ => 0
  }

  /** The final state a flow reaches from `st` once every collection step has accepted its input. */
  function FlowEnd(st: FlowState): FlowState
    decreases StepsLeft(st)
  {
    if StepsLeft(st) == 0 then st
    else
      assert StepsLeft(NextState(st)) < StepsLeft(st);
      FlowEnd(NextState(st))
  }

  /**
   Each `gen:` kind opens its own flow: the flow entered by the choice ends
   in a final state whose request is recorded under that kind (the style
   flow under `style_analysis`).
   */
  lemma GenChoiceOpensItsOwnFlow(kind: string, data: SessionData, text: string, authorStyle: Option<string>)
    requires EntryState(kind).Some?
    ensures IsFinal(FlowEnd(EntryState(kind).value))
    ensures RequestFor(FlowEnd(EntryState(kind).value), data, text, authorStyle).kind
         == if kind == "style" then "style_analysis" else kind
  {
    var first := EntryState(kind).value;
    if kind == "post" {
      assert FlowEnd(first) == FlowEnd(PostStyle) == FlowEnd(PostAudience) == PostCta;
    } else if kind == "caption" {
      assert FlowEnd(first) == CaptionTask;
    } else {
      assert FlowEnd(first) == first;
    }
  }

  /** The post flow goes topic, style, audience, call to action; the caption flow photo, task. */
  lemma CollectionStepsAdvance(b: Bot, uid: UserId, env: Env, text: string, style: string, photo: string)
    ensures var st := SessionOf(b, uid).state;
      st in {PostTopic, PostAudience} ==>
        SessionOf(Dispatch(b, uid, Incoming(Message(Some(text), None)), env), uid).state == NextState(st)
    ensures SessionOf(b, uid).state == PostStyle ==>
      SessionOf(Dispatch(b, uid, PostStyleChoice(style), env), uid).state == NextState(PostStyle)
    ensures SessionOf(b, uid).state == CaptionPhoto ==>
      SessionOf(Dispatch(b, uid, Incoming(Message(None, Some(photo))), env), uid).state == NextState(CaptionPhoto)
  {
  }

  /** In the photo step, a message without a photo re-prompts: nothing changes. */
  lemma CaptionWithoutPhotoStays(b: Bot, uid: UserId, env: Env, text: Option<string>)
    requires SessionOf(b, uid).state == CaptionPhoto
    ensures Dispatch(b, uid, Incoming(Message(text, None)), env) == b
  {
  }

  /** A final step always ends the session once its input has text, whatever the quota or the generator did. */
  lemma FinalStepEndsSession(b: Bot, uid: UserId, env: Env, text: string, photo: Option<string>)
    requires IsFinal(SessionOf(b, uid).state)
    ensures SessionOf(Dispatch(b, uid, Incoming(Message(Some(text), photo)), env), uid).state == Idle
  {
  }

  /**
   A text message in any final state is handed to the final step: with a
   generated text it counts one generation exactly when the re-check passes,
   and the flow ends either way.
   */
  lemma FinalMessageCounts(x: Bot, uid: UserId, text: string, photo: Option<string>, env: Env)
    requires IsFinal(SessionOf(x, uid).state) && Truthy(env.generated)
    ensures var r := Dispatch(x, uid, Incoming(Message(Some(text), photo)), env);
      && SessionOf(r, uid).state == Idle
      && Store.Used(r.store, uid, env.today) == Store.Used(x.store, uid, env.today) + (if Passes(x, uid, env) then 1 else 0)
  {
    var msg := Message(Some(text), photo);
    var st := SessionOf(x, uid).state;
    assert st !in {Idle, PostStyle, PostTopic, PostAudience, CaptionPhoto};
    var r := FinalStep(x, uid, msg, env);
    assert Dispatch(x, uid, Incoming(msg), env) == r;
    if !Passes(x, uid, env) {
      assert r == Clear(x, uid);
    }
  }

  /** `content:regen` with a cached item, a passing check and a generated text counts one generation and caches the new text. */
  lemma RegenRequestCounts(x: Bot, uid: UserId, env: Env)
    requires uid in x.lastContent && Passes(x, uid, env) && Truthy(env.generated)
    ensures var r := Dispatch(x, uid, RegenRequest, env);
      && Store.Used(r.store, uid, env.today) == Store.Used(x.store, uid, env.today) + 1
      && uid in r.lastContent && r.lastContent[uid].text == env.generated.value
      && r.sessions == x.sessions
  {
  }

  /** `content:edit` with a cached item waits for the edit instruction, remembering that item's prompt and kind. */
  lemma EditRequestWaits(x: Bot, uid: UserId, env: Env)
    requires uid in x.lastContent
    ensures var r := Dispatch(x, uid, EditRequest, env);
      && SessionOf(r, uid).state == WaitingEdit
      && SessionOf(r, uid).data.editBase == Some(x.lastContent[uid].prompt)
      && SessionOf(r, uid).data.editKind == Some(x.lastContent[uid].kind)
      && r.store == x.store
  {
  }

  /** `content:save` with a cached item appends that item to the saved content, and nothing is counted. */
  lemma SaveRequestSaves(x: Bot, uid: UserId, env: Env)
    requires uid in x.lastContent
    ensures var r := Dispatch(x, uid, SaveRequest, env);
      var item := x.lastContent[uid];
      && r.store.saved == x.store.saved + [Store.Generation(uid, item.kind, item.prompt, item.text)]
      && r.store.counters == x.store.counters
  {
  }

  // ---------------------------------------------------------------------------
  // Invariants of the dispatcher
  // ---------------------------------------------------------------------------

  /** Every state past the first of its flow has the fields the earlier steps collect. */
  predicate DataCoversState(ss: Session)
  {
    && (ss.state == PostStyle ==> ss.data.topic.Some?)
    && (ss.state == PostAudience ==> ss.data.topic.Some? && ss.data.style.Some?)
    && (ss.state == PostCta ==> ss.data.topic.Some? && ss.data.style.Some? && ss.data.audience.Some?)
    && (ss.state == CaptionTask ==> ss.data.photoId.Some?)
    && (ss.state == WaitingEdit ==> ss.data.editBase.Some? && ss.data.editKind.Some?)
  }

  predicate SessionsWf(b: Bot)
  {
    forall v :: v in b.sessions ==> DataCoversState(b.sessions[v])
  }

  lemma SessionOfCovers(b: Bot, v: UserId)
    requires SessionsWf(b)
    ensures DataCoversState(SessionOf(b, v))
  {
  }

  /**
   Every event keeps all sessions' data consistent with their states, so the
   `data.get` defaults of the final steps are never used by a session that
   went through its flow.
   */
  lemma DispatchKeepsSessionsWf(b: Bot, uid: UserId, ev: Event, env: Env)
    requires SessionsWf(b)
    ensures SessionsWf(Dispatch(b, uid, ev, env))
  {
    var r := Dispatch(b, uid, ev, env);
    SessionOfCovers(b, uid);
    forall v | v in r.sessions
      ensures DataCoversState(r.sessions[v])
    {
      if v != uid {
        SessionOfCovers(b, v);
        assert r.sessions[v] == SessionOf(r, v) == SessionOf(b, v);
      } else {
        assert r.sessions[v] == SessionOf(r, uid);
      }
    }
  }

  /** With consistent sessions, a post is generated from exactly the topic, style and audience collected. */
  lemma PostPromptUsesCollectedFields(b: Bot, uid: UserId, text: string)
    requires SessionsWf(b) && SessionOf(b, uid).state == PostCta
    ensures var d := SessionOf(b, uid).data;
      RequestFor(PostCta, d, text, Store.UserStyle(b.store, uid)).prompt
        == PostPrompt(d.topic.value, d.audience.value, d.style.value, Strip(text), Store.UserStyle(b.store, uid))
  {
    SessionOfCovers(b, uid);
  }

  /** Every event keeps the store's one-settings-row-per-user invariant. */
  lemma DispatchKeepsStoreWf(b: Bot, uid: UserId, ev: Event, env: Env)
    requires Store.Wf(b.store)
    ensures Store.Wf(Dispatch(b, uid, ev, env).store)
  {
  }

  /**
   One event counts at most one generation, only for its own user and day,
   and only after a passing quota check and a non-empty generation.
   */
  lemma DispatchCountsAtMostOne(b: Bot, uid: UserId, ev: Event, env: Env)
    ensures var r := Dispatch(b, uid, ev, env);
      Store.Used(r.store, uid, env.today) == Store.Used(b.store, uid, env.today)
      || (&& Store.Used(r.store, uid, env.today) == Store.Used(b.store, uid, env.today) + 1
          && Passes(b, uid, env)
          && Truthy(env.generated))
    ensures var r := Dispatch(b, uid, ev, env);
      forall u, d :: (u, d) != (uid, env.today) ==> Store.Used(r.store, u, d) == Store.Used(b.store, u, d)
  {
  }

  /** No event changes anyone's allowance or administrator status. */
  lemma DispatchKeepsEntitlements(b: Bot, uid: UserId, ev: Event, env: Env)
    ensures Store.SameEntitlements(b.store, Dispatch(b, uid, ev, env).store)
  {
    var r := Dispatch(b, uid, ev, env);
    var counted := Store.IncrementGenerationCounter(b.store, uid, env.today);
    Store.IncrementKeepsEntitlements(b.store, uid, env.today);
    if r.store == b.store {
    } else if r.store.users == b.store.users {
      Store.SameUsersSameEntitlements(b.store, r.store);
    } else {
      // only a counted generation can touch the users table
      assert r.store.users == counted.users;
      Store.SameUsersSameEntitlements(counted, r.store);
    }
  }

  // ---------------------------------------------------------------------------
  // Sequences of events
  // ---------------------------------------------------------------------------

  /** One user's events handled one after another on one day; each step carries the generator's answer. */
  function Run(b: Bot, adminId: int, uid: UserId, day: Store.Day, steps: seq<(Event, Option<string>)>): Bot
    decreases |steps|
  {
    if |steps| == 0 then b
    else Run(Dispatch(b, uid, steps[0].0, Env(adminId, day, steps[0].1)), adminId, uid, day, steps[1..])
  }

  /**
   Handled one at a time, no sequence of events takes a non-administrator
   past their daily allowance: every count follows a check in the same step.
   */
  lemma {:induction false} RunStaysWithinLimit(b: Bot, adminId: int, uid: UserId, day: Store.Day, steps: seq<(Event, Option<string>)>)
    requires !Store.IsUserAdmin(b.store, adminId, uid)
    requires Store.Used(b.store, uid, day) <= Store.LimitOf(b.store, uid)
    ensures Store.Used(Run(b, adminId, uid, day, steps).store, uid, day) <= Store.LimitOf(b.store, uid)
    decreases |steps|
  {
    if |steps| > 0 {
      var env := Env(adminId, day, steps[0].1);
      var b1 := Dispatch(b, uid, steps[0].0, env);
      DispatchCountsAtMostOne(b, uid, steps[0].0, env);
      DispatchKeepsEntitlements(b, uid, steps[0].0, env);
      Store.CheckThenIncrementStaysWithinLimit(b.store, adminId, uid, day);
      RunStaysWithinLimit(b1, adminId, uid, day, steps[1..]);
    }
  }

  /** `n` applications of `step` in a row. */
  function Repeat(step: Bot -> Bot, b: Bot, n: nat): Bot
    decreases n
  {
    if n == 0 then b else Repeat(step, step(b), n - 1)
  }

  /**
   A step that, from any state satisfying `inv` within the allowance, keeps
   `inv` and counts one generation exactly when the allowance is not used up,
   repeated `n` times, ends with min(c + n, limit) counted.
   */
  lemma {:induction false} RepeatAdmitsUpToLimit(step: Bot -> Bot, inv: Bot -> bool, b: Bot, uid: UserId, day: Store.Day, limit: int, n: nat)
    requires forall x {:trigger step(x)} :: inv(x) && Store.Used(x.store, uid, day) <= limit ==>
      && inv(step(x))
      && Store.Used(step(x).store, uid, day) == (if Store.Used(x.store, uid, day) < limit then Store.Used(x.store, uid, day) + 1 else Store.Used(x.store, uid, day))
    requires inv(b) && Store.Used(b.store, uid, day) <= limit
    ensures Store.Used(Repeat(step, b, n).store, uid, day)
      == if Store.Used(b.store, uid, day) + n <= limit then Store.Used(b.store, uid, day) + n else limit
    decreases n
  {
    if n > 0 {
      RepeatAdmitsUpToLimit(step, inv, step(b), uid, day, limit, n - 1);
    }
  }

  /** A step that keeps `inv` and always counts one generation, repeated `n` times, counts `n`. */
  lemma {:induction false} RepeatCountsEveryStep(step: Bot -> Bot, inv: Bot -> bool, b: Bot, uid: UserId, day: Store.Day, n: nat)
    requires forall x {:trigger step(x)} :: inv(x) ==> inv(step(x)) && Store.Used(step(x).store, uid, day) == Store.Used(x.store, uid, day) + 1
    requires inv(b)
    ensures Store.Used(Repeat(step, b, n).store, uid, day) == Store.Used(b.store, uid, day) + n
    decreases n
  {
    if n > 0 {
      RepeatCountsEveryStep(step, inv, step(b), uid, day, n - 1);
    }
  }

  /** One story attempt: choose `gen:story`, then send a theme; the generator answers `g`. */
  function StoryAttempt(b: Bot, adminId: int, uid: UserId, day: Store.Day, theme: string, g: string): Bot
  {
    var entered := Dispatch(b, uid, GenChoice("story"), Env(adminId, day, None));
    Dispatch(entered, uid, Incoming(Message(Some(theme), None)), Env(adminId, day, Some(g)))
  }

  /** `n` story attempts in a row. */
  function StoryAttempts(b: Bot, adminId: int, uid: UserId, day: Store.Day, theme: string, g: string, n: nat): Bot
  {
    Repeat(x => StoryAttempt(x, adminId, uid, day, theme, g), b, n)
  }

  /** A single attempt of an idle non-administrator counts one generation exactly when the allowance is not used up. */
  lemma StoryAttemptCounts(b: Bot, adminId: int, uid: UserId, day: Store.Day, theme: string, g: string)
    requires SessionOf(b, uid).state == Idle && g != ""
    requires !Store.IsUserAdmin(b.store, adminId, uid)
    ensures var r := StoryAttempt(b, adminId, uid, day, theme, g);
      && SessionOf(r, uid).state == Idle
      && Store.Used(r.store, uid, day)
         == (if Store.Used(b.store, uid, day) < Store.LimitOf(b.store, uid) then Store.Used(b.store, uid, day) + 1 else Store.Used(b.store, uid, day))
      && !Store.IsUserAdmin(r.store, adminId, uid)
      && Store.LimitOf(r.store, uid) == Store.LimitOf(b.store, uid)
  {
    var e0 := Env(adminId, day, None);
    var entered := Dispatch(b, uid, GenChoice("story"), e0);
    DispatchKeepsEntitlements(b, uid, GenChoice("story"), e0);
    var e1 := Env(adminId, day, Some(g));
    DispatchKeepsEntitlements(entered, uid, Incoming(Message(Some(theme), None)), e1);
    if SessionOf(entered, uid).state == StoryVector {
      FinalMessageCounts(entered, uid, theme, None, e1);
    }
  }

  /**
   Sequential quota: starting idle with `c` of `L` generations used, `n`
   successful story attempts of a non-administrator end with min(c + n, L)
   used, so exactly min(n, L - c) of them were admitted.
   */
  lemma StoryAttemptsAdmitUpToLimit(b: Bot, adminId: int, uid: UserId, day: Store.Day, theme: string, g: string, n: nat)
    requires SessionOf(b, uid).state == Idle && g != ""
    requires !Store.IsUserAdmin(b.store, adminId, uid)
    requires Store.Used(b.store, uid, day) <= Store.LimitOf(b.store, uid)
    ensures var c := Store.Used(b.store, uid, day);
      var limit := Store.LimitOf(b.store, uid);
      Store.Used(StoryAttempts(b, adminId, uid, day, theme, g, n).store, uid, day) == if c + n <= limit then c + n else limit
  {
    var limit := Store.LimitOf(b.store, uid);
    var step := x => StoryAttempt(x, adminId, uid, day, theme, g);
    var inv := x => SessionOf(x, uid).state == Idle && !Store.IsUserAdmin(x.store, adminId, uid)
                    && Store.LimitOf(x.store, uid) == limit;
    forall x | inv(x) && Store.Used(x.store, uid, day) <= limit
      ensures inv(step(x))
      ensures Store.Used(step(x).store, uid, day) == (if Store.Used(x.store, uid, day) < limit then Store.Used(x.store, uid, day) + 1 else Store.Used(x.store, uid, day))
    {
      StoryAttemptCounts(x, adminId, uid, day, theme, g);
    }
    RepeatAdmitsUpToLimit(step, inv, b, uid, day, limit, n);
  }

  /** An administrator's attempt always passes, and it is still counted: the final step has no administrator guard. */
  lemma AdminStoryAttemptCounts(b: Bot, adminId: int, uid: UserId, day: Store.Day, theme: string, g: string)
    requires SessionOf(b, uid).state == Idle && g != ""
    requires Store.IsUserAdmin(b.store, adminId, uid)
    ensures var r := StoryAttempt(b, adminId, uid, day, theme, g);
      && SessionOf(r, uid).state == Idle
      && Store.Used(r.store, uid, day) == Store.Used(b.store, uid, day) + 1
      && Store.IsUserAdmin(r.store, adminId, uid)
  {
    var e0 := Env(adminId, day, None);
    var entered := Dispatch(b, uid, GenChoice("story"), e0);
    DispatchKeepsEntitlements(b, uid, GenChoice("story"), e0);
  }

  /** `n` successful attempts of an administrator add exactly `n` to the counter. */
  lemma AdminAttemptsAllCount(b: Bot, adminId: int, uid: UserId, day: Store.Day, theme: string, g: string, n: nat)
    requires SessionOf(b, uid).state == Idle && g != ""
    requires Store.IsUserAdmin(b.store, adminId, uid)
    ensures Store.Used(StoryAttempts(b, adminId, uid, day, theme, g, n).store, uid, day) == Store.Used(b.store, uid, day) + n
  {
    var step := x => StoryAttempt(x, adminId, uid, day, theme, g);
    var inv := x => SessionOf(x, uid).state == Idle && Store.IsUserAdmin(x.store, adminId, uid);
    forall x | inv(x)
      ensures inv(step(x)) && Store.Used(step(x).store, uid, day) == Store.Used(x.store, uid, day) + 1
    {
      AdminStoryAttemptCounts(x, adminId, uid, day, theme, g);
    }
    RepeatCountsEveryStep(step, inv, b, uid, day, n);
  }
}

=== FILE: legacy_db.dfy ===
/**
 The older `Database` class of the bot: one users table with a per-user
 daily message counter that rolls over when the day changes, a settings row
 of boolean switches written through a field whitelist, and bonus,
 referral and payment bookkeeping. Tables become maps and sequences; an
 UPDATE that matches no row changes nothing.
 */
module LegacyDb {
  import opened Wrappers
  import Plans
  import Store

  type UserId = Store.UserId
  type Day = Store.Day

  /** The bonus a referrer receives for every referral. */
  const ReferralBonus: int := 50

  /** A row of `users`, with the column defaults of a fresh insert where the insert gives none. */
  datatype LUser = LUser(
    username: string,
    firstName: string,
    lastName: string,
    subscriptionType: string,
    subscriptionEnd: Option<Day>,
    messagesCount: nat,
    messagesToday: nat,
    lastMessageDate: Option<Day>,
    bonusPoints: int,
    totalSpent: int,
    referralCode: Option<string>,
    referredBy: Option<UserId>,
    isActive: bool)

  /** A row of `user_settings`: the switches by column name, and the time of the last write. */
  datatype LSettings = LSettings(flags: map<string, bool>, updatedAt: int)

  /** A row of `payments`. */
  datatype LPayment = LPayment(userId: UserId, amount: int, currency: string, tier: string, status: string)

  /** A row of `referrals`. */
  datatype Referral = Referral(referrer: UserId, referred: UserId, bonusGiven: bool)

  datatype Db = Db(
    users: map<UserId, LUser>,
    settings: map<UserId, LSettings>,
    payments: seq<LPayment>,
    referrals: seq<Referral>)

  /** The switches `update_user_settings` accepts; every other keyword is dropped. */
  const AllowedFields: set<string> := {
    "notifications_enabled", "notifications_features", "notifications_promos",
    "notifications_reminders", "statistics_collection", "show_in_rating", "save_history"
  }

  /** The column defaults of a settings row: every switch on except `show_in_rating`. */
  const DefaultFlags: map<string, bool> := map[
    "notifications_enabled" := true, "notifications_features" := true,
    "notifications_promos" := true, "notifications_reminders" := true,
    "statistics_collection" := true, "show_in_rating" := false, "save_history" := true
  ]

  /** Every settings row carries exactly the whitelisted switches. */
  predicate Wf(db: Db)
  {
    forall u :: u in db.settings ==> db.settings[u].flags.Keys == AllowedFields
  }

  /** A user row as `add_user` inserts it. */
  function NewUser(username: string, firstName: string, lastName: string): (r: LUser)
    ensures r.subscriptionType == Plans.Key(Plans.Free)
    ensures r.messagesCount == 0 && r.messagesToday == 0 && r.lastMessageDate.None?
    ensures r.bonusPoints == 0 && r.totalSpent == 0 && r.isActive
  {
    LUser(username, firstName, lastName, "free", None, 0, 0, None, 0, 0, None, None, true)
  }

  // ---------------------------------------------------------------------------
  // Users and settings
  // ---------------------------------------------------------------------------

  /**
   Inserts the user row and the settings row, each only if it is missing:
   the two inserts are ignored independently, so an existing row of either
   table is kept as it is.
   */
  function AddUser(db: Db, uid: UserId, username: string, firstName: string, lastName: string, now: int): (r: Db)
    ensures uid in r.users && uid in r.settings
    ensures uid in db.users ==> r.users == db.users
    ensures uid !in db.users ==> r.users == db.users[uid := NewUser(username, firstName, lastName)]
    ensures uid in db.settings ==> r.settings == db.settings
    ensures uid !in db.settings ==> r.settings == db.settings[uid := LSettings(DefaultFlags, now)]
    ensures r.payments == db.payments && r.referrals == db.referrals
    ensures Wf(db) ==> Wf(r)
  {
    var users := if uid in db.users then db.users else db.users[uid := NewUser(username, firstName, lastName)];
    var settings := if uid in db.settings then db.settings else db.settings[uid := LSettings(DefaultFlags, now)];
    db.(users := users, settings := settings)
  }

  /** Adding a user twice is the same as adding them once, whatever the second call's names. */
  lemma AddUserIdempotent(db: Db, uid: UserId, u1: string, f1: string, l1: string, n1: int, u2: string, f2: string, l2: string, n2: int)
    ensures AddUser(AddUser(db, uid, u1, f1, l1, n1), uid, u2, f2, l2, n2) == AddUser(db, uid, u1, f1, l1, n1)
  {
  }

  /** The whitelisted part of the keyword arguments. */
  function Whitelisted(kwargs: map<string, bool>): (r: map<string, bool>)
    ensures r.Keys == kwargs.Keys * AllowedFields
    ensures forall k :: k in r ==> r[k] == kwargs[k]
  {
    map k | k in kwargs && k in AllowedFields :: kwargs[k]
  }

  /**
   Writes the whitelisted switches of `kwargs` and the write time into the
   user's settings row. When no keyword is whitelisted nothing is written,
   not even the time; a missing row is not created.
   */
  function UpdateUserSettings(db: Db, uid: UserId, kwargs: map<string, bool>, now: int): (r: Db)
    ensures kwargs.Keys * AllowedFields == {} ==> r == db
    ensures uid !in db.settings ==> r == db
    ensures r.users == db.users && r.payments == db.payments && r.referrals == db.referrals
    ensures r.settings.Keys == db.settings.Keys
    ensures forall v :: v in db.settings && v != uid ==> r.settings[v] == db.settings[v]
    ensures uid in db.settings && kwargs.Keys * AllowedFields != {} ==>
      && r.settings[uid].updatedAt == now
      && r.settings[uid].flags.Keys == db.settings[uid].flags.Keys + kwargs.Keys * AllowedFields
      && (forall k :: k in kwargs && k in AllowedFields ==> r.settings[uid].flags[k] == kwargs[k])
      && (forall k :: k in db.settings[uid].flags && k !in kwargs ==> r.settings[uid].flags[k] == db.settings[uid].flags[k])
    ensures Wf(db) ==> Wf(r)
  {
    var fields := Whitelisted(kwargs);
    if fields == map[] || uid !in db.settings then db
    else db.(settings := db.settings[uid := LSettings(db.settings[uid].flags + fields, now)])
  }

  /** Keywords outside the whitelist have no effect at all. */
  lemma {:induction false} UnknownFieldsAreIgnored(db: Db, uid: UserId, kwargs: map<string, bool>, now: int)
    ensures UpdateUserSettings(db, uid, kwargs, now) == UpdateUserSettings(db, uid, Whitelisted(kwargs), now)
  {
    assert Whitelisted(Whitelisted(kwargs)) == Whitelisted(kwargs);
  }

  // ---------------------------------------------------------------------------
  // Daily message counter
  // ---------------------------------------------------------------------------

  /**
   Counts one message of `uid` on `today`. The first message of a day (the
   stored date differs from `today`, or is missing) restarts the day's
   counter at one; a later one adds one. The lifetime counter always grows
   by one. An unknown user is left out.
   */
  function IncrementMessages(db: Db, uid: UserId, today: Day): (r: Db)
    ensures uid !in db.users ==> r == db
    ensures r.users.Keys == db.users.Keys
    ensures uid in db.users ==>
      var u := db.users[uid];
      && r.users[uid].messagesCount == u.messagesCount + 1
      && r.users[uid].lastMessageDate == Some(today)
      && r.users[uid].messagesToday == (if u.lastMessageDate == Some(today) then u.messagesToday + 1 else 1)
      && r.users[uid] == u.(messagesCount := r.users[uid].messagesCount, messagesToday := r.users[uid].messagesToday, lastMessageDate := Some(today))
    ensures forall v :: v in db.users && v != uid ==> r.users[v] == db.users[v]
    ensures r.settings == db.settings && r.payments == db.payments && r.referrals == db.referrals
  {
    if uid !in db.users then db
    else
      var u := db.users[uid];
      var newDay := u.lastMessageDate != Some(today);
      var u' := u.(messagesToday := if newDay then 1 else u.messagesToday + 1,
                   messagesCount := u.messagesCount + 1,
                   lastMessageDate := Some(today));
      db.(users := db.users[uid := u'])
  }

  /** `n` messages of `uid` on the same day. */
  function IncrementTimes(db: Db, uid: UserId, today: Day, n: nat): Db
    decreases n
  {
    if n == 0 then db else IncrementTimes(IncrementMessages(db, uid, today), uid, today, n - 1)
  }

  /**
   After `n > 0` messages on `today` the day's counter is `n` more than
   before when the stored day already was `today`, and exactly `n`
   otherwise; the lifetime counter grows by `n`.
   */
  lemma {:induction false} IncrementTimesCounts(db: Db, uid: UserId, today: Day, n: nat)
    requires uid in db.users && n > 0
    ensures var u := db.users[uid];
      var r := IncrementTimes(db, uid, today, n);
      && uid in r.users
      && r.users[uid].messagesToday == (if u.lastMessageDate == Some(today) then u.messagesToday + n else n)
      && r.users[uid].messagesCount == u.messagesCount + n
      && r.users[uid].lastMessageDate == Some(today)
    decreases n
  {
    var once := IncrementMessages(db, uid, today);
    if n > 1 {
      IncrementTimesCounts(once, uid, today, n - 1);
    }
  }

  /**
   The message allowance of a user: the `monthly_limit` of the user's plan,
   the free plan standing in for an unknown tier, 0 when the plan has no
   such entry, and 0 for an unknown user.
   */
  function GetMessagesLimit(db: Db, uid: UserId): (r: int)
    ensures uid !in db.users ==> r == 0
    ensures forall t :: uid in db.users && db.users[uid].subscriptionType == Plans.Key(t) ==> r == Plans.PlanOf(t).monthlyLimit.value
    ensures uid in db.users && (forall t :: db.users[uid].subscriptionType != Plans.Key(t)) ==> r == Plans.PlanOf(Plans.Free).monthlyLimit.value
    ensures r >= 0
  {
    if uid !in db.users then 0
    else Plans.LookupOrFree(db.users[uid].subscriptionType).monthlyLimit.GetOr(0)
  }

  /** Every registered user's allowance is one of the four plan limits; a tier that is not a plan key gets the free one. */
  lemma MessagesLimitIsAPlanLimit(db: Db, uid: UserId)
    requires uid in db.users
    ensures GetMessagesLimit(db, uid) in {5, 100, 500, 9999}
    ensures Plans.ParseTier(db.users[uid].subscriptionType).None? ==> GetMessagesLimit(db, uid) == 5
  {
  }

  /**
   Whether a user may send another message, as the class decides it: the
   stored day's counter is compared with the allowance, whatever day that
   counter belongs to. An unknown user may not.
   */
  function CanUseFeature(db: Db, uid: UserId): (r: bool)
    ensures uid !in db.users ==> !r
    ensures uid in db.users ==> (r <==> db.users[uid].messagesToday < GetMessagesLimit(db, uid))
    ensures r ==> forall d :: UsedOn(db, uid, d) < GetMessagesLimit(db, uid)
  {
    uid in db.users && db.users[uid].messagesToday < GetMessagesLimit(db, uid)
  }

  /**
   The counter is not rolled over before the comparison: a free user who
   used up yesterday's five messages is refused today, and since only a
   counted message rolls the counter over, keeps being refused on every
   later day.
   */
  lemma StaleCounterLocksOut(db: Db, uid: UserId, yesterday: Day, later: Day)
    requires uid in db.users && db.users[uid].subscriptionType == Plans.Key(Plans.Free)
    requires db.users[uid].messagesToday == 5 && db.users[uid].lastMessageDate == Some(yesterday)
    requires later > yesterday
    ensures !CanUseFeature(db, uid)
    ensures CanUseFeatureOn(db, uid, later)
  {
  }

  /** The messages `uid` has sent on `today`: the stored counter only if it belongs to `today`. */
  function UsedOn(db: Db, uid: UserId, today: Day): (r: nat)
    ensures uid !in db.users ==> r == 0
    ensures uid in db.users && db.users[uid].lastMessageDate != Some(today) ==> r == 0
    ensures uid in db.users && db.users[uid].lastMessageDate == Some(today) ==> r == db.users[uid].messagesToday
    ensures uid in db.users ==> IncrementMessages(db, uid, today).users[uid].messagesToday == r + 1
  {
    if uid in db.users && db.users[uid].lastMessageDate == Some(today) then db.users[uid].messagesToday else 0
  }

  /** The allowance check with the day taken into account, as the counter's rollover intends. */
  function CanUseFeatureOn(db: Db, uid: UserId, today: Day): (r: bool)
    ensures r <==> uid in db.users && UsedOn(db, uid, today) < GetMessagesLimit(db, uid)
    ensures uid in db.users && db.users[uid].lastMessageDate == Some(today) ==> (r <==> CanUseFeature(db, uid))
  {
    uid in db.users && UsedOn(db, uid, today) < GetMessagesLimit(db, uid)
  }

  /**
   The day-aware check agrees with the counter: each counted message adds
   exactly one to the day's usage and leaves the allowance alone, so a
   message is allowed exactly when, once counted, the day's usage is still
   within the allowance.
   */
  lemma CountedMessageUsesOne(db: Db, uid: UserId, today: Day)
    requires uid in db.users
    ensures var r := IncrementMessages(db, uid, today);
      && UsedOn(r, uid, today) == UsedOn(db, uid, today) + 1
      && GetMessagesLimit(r, uid) == GetMessagesLimit(db, uid)
      && (CanUseFeatureOn(db, uid, today) <==> UsedOn(r, uid, today) <= GetMessagesLimit(r, uid))
  {
  }

  // ---------------------------------------------------------------------------
  // Bonus points, subscriptions, referrals, payments
  // ---------------------------------------------------------------------------

  /** Adds `points` to a user's bonus; nothing else changes, and an unknown user is left out. */
  function AddBonusPoints(db: Db, uid: UserId, points: int): (r: Db)
    ensures uid !in db.users ==> r == db
    ensures uid in db.users ==> r.users == db.users[uid := db.users[uid].(bonusPoints := db.users[uid].bonusPoints + points)]
    ensures r.settings == db.settings && r.payments == db.payments && r.referrals == db.referrals
  {
    if uid !in db.users then db
    else db.(users := db.users[uid := db.users[uid].(bonusPoints := db.users[uid].bonusPoints + points)])
  }

  /** Two awards add up: awarding `a` then `b` is awarding `a + b`. */
  lemma BonusPointsAddUp(db: Db, uid: UserId, a: int, b: int)
    ensures AddBonusPoints(AddBonusPoints(db, uid, a), uid, b) == AddBonusPoints(db, uid, a + b)
  {
  }

  /** Overwrites a user's tier and sets the subscription to end `days` days after `today`. */
  function UpdateSubscription(db: Db, uid: UserId, tier: string, days: int, today: Day): (r: Db)
    ensures uid !in db.users ==> r == db
    ensures uid in db.users ==> r.users == db.users[uid := db.users[uid].(subscriptionType := tier, subscriptionEnd := Some(today + days))]
    ensures r.settings == db.settings && r.payments == db.payments && r.referrals == db.referrals
  {
    if uid !in db.users then db
    else db.(users := db.users[uid := db.users[uid].(subscriptionType := tier, subscriptionEnd := Some(today + days))])
  }

  /** A later subscription update replaces an earlier one entirely. */
  lemma LaterSubscriptionWins(db: Db, uid: UserId, t1: string, d1: int, n1: Day, t2: string, d2: int, n2: Day)
    ensures UpdateSubscription(UpdateSubscription(db, uid, t1, d1, n1), uid, t2, d2, n2) == UpdateSubscription(db, uid, t2, d2, n2)
  {
  }

  /** A subscription update switches the allowance to the new plan's. */
  lemma SubscriptionSetsLimit(db: Db, uid: UserId, t: Plans.Tier, days: int, today: Day)
    requires uid in db.users
    ensures GetMessagesLimit(UpdateSubscription(db, uid, Plans.Key(t), days, today), uid) == Plans.PlanOf(t).monthlyLimit.value
  {
    Plans.KeyRoundTrip(t);
  }

  /** The positions of the referral rows that name `uid` as the referrer. */
  ghost function ReferrerRows(rs: seq<Referral>, uid: UserId): set<int>
  {
    set i | 0 <= i < |rs| && rs[i].referrer == uid
  }

  /** Splitting off the last row splits the referrer's rows the same way. */
  lemma ReferrerRowsOfPrefix(rs: seq<Referral>, uid: UserId)
    requires rs != []
    ensures |ReferrerRows(rs, uid)|
         == |ReferrerRows(rs[..|rs| - 1], uid)| + (if rs[|rs| - 1].referrer == uid then 1 else 0)
  {
    var n := |rs| - 1;
    var rows := ReferrerRows(rs[..n], uid);
    var last: set<int> := if rs[n].referrer == uid then {n} else {};
    ReferrerRowsSplit(rs, uid);
    assert rows * last == {};
  }

  /** The referrer's rows of a table are those of its prefix plus, possibly, the last row. */
  lemma ReferrerRowsSplit(rs: seq<Referral>, uid: UserId)
    requires rs != []
    ensures ReferrerRows(rs, uid)
         == ReferrerRows(rs[..|rs| - 1], uid) + (if rs[|rs| - 1].referrer == uid then {|rs| - 1} else {})
  {
  }

  /** The referrals made by `uid`: the number of rows naming them as referrer. */
  function ReferralCount(rs: seq<Referral>, uid: UserId): (r: nat)
    ensures r == |ReferrerRows(rs, uid)|
    ensures r <= |rs|
    decreases |rs|
  {
    if rs == [] then 0
    else
      ReferrerRowsOfPrefix(rs, uid);
      ReferralCount(rs[..|rs| - 1], uid) + (if rs[|rs| - 1].referrer == uid then 1 else 0)
  }

  /** `get_referral_count`: the rows of `referrals` naming `uid` as referrer. */
  function GetReferralCount(db: Db, uid: UserId): (r: nat)
    ensures r == |set i | 0 <= i < |db.referrals| && db.referrals[i].referrer == uid|
    ensures r <= |db.referrals|
  {
    ReferralCount(db.referrals, uid)
  }

  /**
   Records a referral and gives the referrer the referral bonus. The row is
   recorded even when the referrer is unknown (then no bonus is given), for a
   self-referral and for a repeated pair.
   */
  function AddReferral(db: Db, referrer: UserId, referred: UserId): (r: Db)
    ensures r.referrals == db.referrals + [Referral(referrer, referred, false)]
    ensures r.users == AddBonusPoints(db, referrer, ReferralBonus).users
    ensures r.settings == db.settings && r.payments == db.payments
  {
    var bonused := AddBonusPoints(db, referrer, ReferralBonus);
    bonused.(referrals := db.referrals + [Referral(referrer, referred, false)])
  }

  /** A referral adds one to the referrer's count and to nobody else's. */
  lemma {:induction false} ReferralCountsOnce(db: Db, referrer: UserId, referred: UserId, v: UserId)
    ensures GetReferralCount(AddReferral(db, referrer, referred), v)
         == GetReferralCount(db, v) + (if v == referrer then 1 else 0)
  {
    var rs := AddReferral(db, referrer, referred).referrals;
    assert rs[..|rs| - 1] == db.referrals;
  }

  /** Records a payment in roubles and adds its amount to the user's total spent. */
  function AddPayment(db: Db, uid: UserId, amount: int, tier: string, status: string): (r: Db)
    ensures r.payments == db.payments + [LPayment(uid, amount, "RUB", tier, status)]
    ensures uid !in db.users ==> r.users == db.users
    ensures uid in db.users ==> r.users == db.users[uid := db.users[uid].(totalSpent := db.users[uid].totalSpent + amount)]
    ensures r.settings == db.settings && r.referrals == db.referrals
  {
    var users := if uid in db.users then db.users[uid := db.users[uid].(totalSpent := db.users[uid].totalSpent + amount)] else db.users;
    db.(users := users, payments := db.payments + [LPayment(uid, amount, "RUB", tier, status)])
  }

  /** The rouble amounts recorded for `uid`. */
  function PaidBy(ps: seq<LPayment>, uid: UserId): (r: int)
    decreases |ps|
  {
    if ps == [] then 0
    else PaidBy(ps[..|ps| - 1], uid) + (if ps[|ps| - 1].userId == uid then ps[|ps| - 1].amount else 0)
  }

  /**
   The total spent follows the payments table: when it equals the sum of the
   user's recorded payments before a payment, it still does afterwards.
   */
  lemma {:induction false} TotalSpentTracksPayments(db: Db, uid: UserId, amount: int, tier: string, status: string)
    requires uid in db.users && db.users[uid].totalSpent == PaidBy(db.payments, uid)
    ensures var r := AddPayment(db, uid, amount, tier, status);
      r.users[uid].totalSpent == PaidBy(r.payments, uid)
  {
    var ps := AddPayment(db, uid, amount, tier, status).payments;
    assert ps[..|ps| - 1] == db.payments;
  }
}

=== FILE: payments.dfy ===
/**
 The payment handlers of the bot: creating a YooKassa payment, the "I have
 paid" check that polls its status, the Telegram Stars invoice and the
 Stars success message. The providers' answers are inputs; the handlers'
 effect is on the store's `payments` and `users` tables.
 */
module Payments {
  import opened Wrappers
  import Plans
  import Store

  /** Every purchase buys this many days. */
  const RenewDays: int := 30

  /** What `create_payment` answered: a failure (no answer, a non-success status or an exception), or the two fields the handler reads. */
  datatype CreateResponse = CreateFailed | Created(paymentId: Option<string>, confirmationUrl: Option<string>)

  /** What `get_payment_status` answered: a failure, or the provider's payment status. */
  datatype StatusResponse = StatusFailed | StatusOk(paymentStatus: Option<string>)

  /** The outcome the user sees after choosing a plan. */
  datatype BuyReply =
    | PlanNotFound
    | BadPrice
    | CreateError
    | MissingLink
    | PayLink(url: string, paymentId: string)

  /** The outcome the user sees after pressing "I have paid". */
  datatype CheckReply = CheckFailed | NotPaidYet(status: Option<string>) | Activated

  /** A Telegram Stars invoice: the payload carries the tier and the buyer; the price is in stars. */
  datatype Invoice = Invoice(tier: string, userId: Store.UserId, amount: int, currency: string)

  /** The price a plan is sold for, or `None` for a key that is not in the registry. */
  function PriceOf(tier: string): (r: Option<int>)
    ensures forall t :: Plans.Key(t) == tier ==> r == Some(Plans.PlanOf(t).price)
    ensures (forall t :: Plans.Key(t) != tier) ==> r.None?
    ensures r.Some? ==> r.value >= 0
  {
    match Plans.Lookup(tier)
    case Some(p) => Some(p.price)
    case None => None
  }

  // ---------------------------------------------------------------------------
  // YooKassa
  // ---------------------------------------------------------------------------

  /**
   The user chose to pay for `tier` by card. Unknown plans and plans whose
   price is not positive are refused before the provider is called. The
   payment row is recorded as pending only when the provider answered with
   both a payment id and a confirmation link.
   */
  function PayYookassa(s: Store.State, uid: Store.UserId, tier: string, orderId: string, resp: CreateResponse): (r: (Store.State, BuyReply))
    ensures PriceOf(tier).None? ==> r == (s, PlanNotFound)
    ensures PriceOf(tier).Some? && PriceOf(tier).value <= 0 ==> r == (s, BadPrice)
    ensures r.1.PayLink? <==>
      PriceOf(tier).Some? && PriceOf(tier).value > 0 && resp.Created? && Truthy(resp.paymentId) && Truthy(resp.confirmationUrl)
    ensures r.1.PayLink? ==>
      && r.1 == PayLink(resp.confirmationUrl.value, resp.paymentId.value)
      && r.0 == s.(payments := s.payments + [Store.Payment(uid, "yookassa", resp.paymentId.value, Some(orderId), tier, PriceOf(tier).value, "RUB", "pending")])
    ensures !r.1.PayLink? ==> r.0 == s
  {
    match PriceOf(tier)
    case None => (s, PlanNotFound)
    case Some(amount) =>
      if amount <= 0 then (s, BadPrice)
      else match resp
        case CreateFailed => (s, CreateError)
        case Created(id, url) =>
          if !Truthy(id) || !Truthy(url) then (s, MissingLink)
          else
            var row := Store.Payment(uid, "yookassa", id.value, Some(orderId), tier, amount, "RUB", "pending");
            (s.(payments := s.payments + [row]), PayLink(url.value, id.value))
  }

  /** The free plan costs nothing, so it is never sent to the provider. */
  lemma FreePlanIsRefused(s: Store.State, uid: Store.UserId, orderId: string, resp: CreateResponse)
    ensures PayYookassa(s, uid, Plans.Key(Plans.Free), orderId, resp) == (s, BadPrice)
  {
  }

  /** Every paid tier reaches the provider, and a complete answer records one pending row at that tier's price. */
  lemma PaidTiersRecordPendingRow(s: Store.State, uid: Store.UserId, t: Plans.Tier, orderId: string, id: string, url: string)
    requires t != Plans.Free && id != "" && url != ""
    ensures var r := PayYookassa(s, uid, Plans.Key(t), orderId, Created(Some(id), Some(url)));
      && r.1 == PayLink(url, id)
      && |r.0.payments| == |s.payments| + 1
      && r.0.payments[|s.payments|].status == "pending"
      && r.0.payments[|s.payments|].amount == Plans.PlanOf(t).price
  {
    Plans.OnlyFreeIsFree(t);
  }

  /** The provider statuses after which the handler grants the subscription. */
  predicate Confirms(st: StatusResponse)
  {
    st.StatusOk? && (st.paymentStatus == Some("succeeded") || st.paymentStatus == Some("waiting_for_capture"))
  }

  /**
   Only a payment the provider reports as succeeded or waiting for capture
   activates the subscription; a pending or cancelled payment, a missing
   status or a failed status call leaves the store as it is.
   */
  lemma OnlyPaidStatusesActivate(s: Store.State, uid: Store.UserId, id: string, tier: string, st: StatusResponse, now: int)
    ensures PayYookassaCheck(s, uid, id, tier, st, now).1 == Activated
      <==> st == StatusOk(Some("succeeded")) || st == StatusOk(Some("waiting_for_capture"))
    ensures st in {StatusFailed, StatusOk(None), StatusOk(Some("pending")), StatusOk(Some("canceled"))} ==>
      PayYookassaCheck(s, uid, id, tier, st, now).0 == s
  {
  }

  /** A YooKassa row of `uid` with external id `id`: the rows the check's update touches. */
  predicate Matches(p: Store.Payment, uid: Store.UserId, id: string)
  {
    p.userId == uid && p.provider == "yookassa" && p.externalId == id
  }

  /** Marks every matching row completed and leaves every other row alone. */
  function MarkCompleted(ps: seq<Store.Payment>, uid: Store.UserId, id: string): (r: seq<Store.Payment>)
    ensures |r| == |ps|
    ensures forall i :: 0 <= i < |ps| && Matches(ps[i], uid, id) ==> r[i] == ps[i].(status := "completed")
    ensures forall i :: 0 <= i < |ps| && !Matches(ps[i], uid, id) ==> r[i] == ps[i]
    decreases |ps|
  {
    if ps == [] then []
    else
      var head := if Matches(ps[0], uid, id) then ps[0].(status := "completed") else ps[0];
      [head] + MarkCompleted(ps[1..], uid, id)
  }

  /** Marking is idempotent: a second update of the same rows changes nothing. */
  lemma {:induction false} MarkCompletedTwice(ps: seq<Store.Payment>, uid: Store.UserId, id: string)
    ensures MarkCompleted(MarkCompleted(ps, uid, id), uid, id) == MarkCompleted(ps, uid, id)
  {
    var once := MarkCompleted(ps, uid, id);
    var twice := MarkCompleted(once, uid, id);
    forall i | 0 <= i < |ps|
      ensures twice[i] == once[i]
    {
      assert Matches(once[i], uid, id) <==> Matches(ps[i], uid, id);
    }
  }

  /**
   The "I have paid" button as the handler implements it: the tier and the
   payment id come from the button, and on a confirming status the
   subscription is overwritten for 30 days from `now` and the matching rows
   are marked completed. Nothing checks that such a row exists or is still
   pending.
   */
  function PayYookassaCheck(s: Store.State, uid: Store.UserId, id: string, tier: string, status: StatusResponse, now: int): (r: (Store.State, CheckReply))
    ensures status.StatusFailed? ==> r == (s, CheckFailed)
    ensures status.StatusOk? && !Confirms(status) ==> r == (s, NotPaidYet(status.paymentStatus))
    ensures Confirms(status) ==>
      && r.1 == Activated
      && r.0.users == Store.UpdateSubscription(s, uid, tier, RenewDays, now).users
      && r.0.payments == MarkCompleted(s.payments, uid, id)
      && r.0.settings == s.settings && r.0.counters == s.counters
      && r.0.history == s.history && r.0.saved == s.saved
  {
    match status
    case StatusFailed => (s, CheckFailed)
    case StatusOk(ps) =>
      if !Confirms(status) then (s, NotPaidYet(ps))
      else
        var granted := Store.UpdateSubscription(s, uid, tier, RenewDays, now);
        (granted.(payments := MarkCompleted(granted.payments, uid, id)), Activated)
  }

  /** After a confirmed check a registered user holds the tier on the button for 30 days from `now`. */
  lemma CheckGrantsThirtyDays(s: Store.State, uid: Store.UserId, id: string, tier: string, status: StatusResponse, now: int)
    requires uid in s.users && Confirms(status)
    ensures var r := PayYookassaCheck(s, uid, id, tier, status, now).0;
      uid in r.users && r.users[uid].tier == tier && r.users[uid].until == Some(now + RenewDays * Store.SecondsPerDay)
  {
  }

  /**
   The same check handled again after a successful one, `d` seconds later
   (a duplicate or replayed callback: the confirming reply removes the
   button), moves the end of the subscription `d` seconds further: one
   payment keeps extending the subscription for as long as the provider
   reports it succeeded.
   */
  lemma RepeatedCheckExtendsSubscription(s: Store.State, uid: Store.UserId, id: string, tier: string, now: int, d: int)
    requires uid in s.users && d > 0
    ensures var st := StatusOk(Some("succeeded"));
      var once := PayYookassaCheck(s, uid, id, tier, st, now).0;
      var twice := PayYookassaCheck(once, uid, id, tier, st, now + d).0;
      && uid in once.users && uid in twice.users
      && twice.users[uid].until.Some? && once.users[uid].until.Some?
      && twice.users[uid].until.value == once.users[uid].until.value + d
  {
  }

  /** A confirmed check grants the button's tier even when the user has no payment row at all. */
  lemma CheckGrantsWithoutPaymentRow(s: Store.State, uid: Store.UserId, id: string, now: int)
    requires uid in s.users && s.payments == []
    ensures var r := PayYookassaCheck(s, uid, id, Plans.Key(Plans.Vip), StatusOk(Some("succeeded")), now).0;
      r.users[uid].tier == Plans.Key(Plans.Vip) && r.payments == []
  {
  }

  /** A pending YooKassa row of `uid` with external id `id`. */
  predicate IsPendingMatch(p: Store.Payment, uid: Store.UserId, id: string)
  {
    Matches(p, uid, id) && p.status == "pending"
  }

  /** The first pending matching row, if there is one. */
  function PendingRow(ps: seq<Store.Payment>, uid: Store.UserId, id: string): (r: Option<nat>)
    ensures r.Some? ==> r.value < |ps| && IsPendingMatch(ps[r.value], uid, id)
    ensures r.None? <==> forall i :: 0 <= i < |ps| ==> !IsPendingMatch(ps[i], uid, id)
    decreases |ps|
  {
    if ps == [] then None
    else if IsPendingMatch(ps[0], uid, id) then Some(0)
    else match PendingRow(ps[1..], uid, id)
      case None => None
      case Some(j) => Some(j + 1)
  }

  /**
   The check with the guard the payment lifecycle needs: it acts only on a
   pending row of this user with this payment id, grants the tier recorded
   on that row, and by marking the row completed closes it for every later
   check.
   */
  function PayYookassaCheckOnce(s: Store.State, uid: Store.UserId, id: string, status: StatusResponse, now: int): (r: (Store.State, CheckReply))
    ensures PendingRow(s.payments, uid, id).None? ==> r.0 == s
    ensures !Confirms(status) ==> r.0 == s
    ensures r.1 == Activated <==> Confirms(status) && PendingRow(s.payments, uid, id).Some?
    ensures r.1 == Activated ==>
      && r.0.users == Store.UpdateSubscription(s, uid, s.payments[PendingRow(s.payments, uid, id).value].tier, RenewDays, now).users
      && r.0.payments == MarkCompleted(s.payments, uid, id)
  {
    match PendingRow(s.payments, uid, id)
    case None => (s, CheckFailed)
    case Some(i) =>
      match status
      case StatusFailed => (s, CheckFailed)
      case StatusOk(ps) =>
        if !Confirms(status) then (s, NotPaidYet(ps))
        else
          var granted := Store.UpdateSubscription(s, uid, s.payments[i].tier, RenewDays, now);
          (granted.(payments := MarkCompleted(granted.payments, uid, id)), Activated)
  }

  /** After a completed check no matching row is pending any more. */
  lemma CompletedLeavesNoPendingRow(ps: seq<Store.Payment>, uid: Store.UserId, id: string)
    ensures PendingRow(MarkCompleted(ps, uid, id), uid, id).None?
  {
    var m := MarkCompleted(ps, uid, id);
    forall i | 0 <= i < |m|
      ensures !IsPendingMatch(m[i], uid, id)
    {
      if Matches(ps[i], uid, id) {
        assert m[i].status == "completed";
      }
    }
  }

  /**
   Exactly once: after a check that activated the subscription, every later
   check of the same payment, whatever the provider answers and whenever it
   is pressed, leaves the store as it is.
   */
  lemma CheckOnceIsIdempotent(s: Store.State, uid: Store.UserId, id: string, st1: StatusResponse, n1: int, st2: StatusResponse, n2: int)
    requires PayYookassaCheckOnce(s, uid, id, st1, n1).1 == Activated
    ensures var once := PayYookassaCheckOnce(s, uid, id, st1, n1).0;
      PayYookassaCheckOnce(once, uid, id, st2, n2).0 == once
  {
    CompletedLeavesNoPendingRow(s.payments, uid, id);
  }

  /** A check that did not activate anything leaves the payment pending, so a later press can still activate it. */
  lemma UnconfirmedCheckKeepsRowPending(s: Store.State, uid: Store.UserId, id: string, st: StatusResponse, now: int)
    requires PendingRow(s.payments, uid, id).Some? && !Confirms(st)
    ensures PendingRow(PayYookassaCheckOnce(s, uid, id, st, now).0.payments, uid, id).Some?
  {
  }

  // ---------------------------------------------------------------------------
  // Telegram Stars
  // ---------------------------------------------------------------------------

  /** The outcome of choosing to pay for `tier` in stars. */
  datatype StarsReply = StarsPlanNotFound | StarsBadPrice | InvoiceSent(invoice: Invoice)

  /** Builds the invoice for `tier`: unknown plans and non-positive prices are refused; nothing is stored. */
  function PayStars(uid: Store.UserId, tier: string): (r: StarsReply)
    ensures (forall t :: Plans.Key(t) != tier) ==> r == StarsPlanNotFound
    ensures Plans.Key(Plans.Free) == tier ==> r == StarsBadPrice
    ensures forall t :: Plans.Key(t) == tier && t != Plans.Free ==>
      r == InvoiceSent(Invoice(tier, uid, Plans.PlanOf(t).price, "XTR"))
  {
    match PriceOf(tier)
    case None => StarsPlanNotFound
    case Some(amount) =>
      if amount <= 0 then StarsBadPrice else InvoiceSent(Invoice(tier, uid, amount, "XTR"))
  }

  /**
   Telegram reports a paid invoice. `payloadTier` is the `sub_type` read
   back from the invoice payload (`None` when it is missing, empty or the
   payload is unreadable). With a tier, the subscription is overwritten for
   30 days from `now` and a completed Stars row is appended.
   */
  function SuccessfulPayment(s: Store.State, uid: Store.UserId, payloadTier: Option<string>, chargeId: string, totalAmount: int, now: int): (r: Store.State)
    ensures !Truthy(payloadTier) ==> r == s
    ensures Truthy(payloadTier) ==>
      && r.users == Store.UpdateSubscription(s, uid, payloadTier.value, RenewDays, now).users
      && r.payments == s.payments + [Store.Payment(uid, "telegram_stars", chargeId, None, payloadTier.value, totalAmount, "XTR", "completed")]
      && r.settings == s.settings && r.counters == s.counters && r.history == s.history && r.saved == s.saved
  {
    if !Truthy(payloadTier) then s
    else
      var granted := Store.UpdateSubscription(s, uid, payloadTier.value, RenewDays, now);
      granted.(payments := granted.payments + [Store.Payment(uid, "telegram_stars", chargeId, None, payloadTier.value, totalAmount, "XTR", "completed")])
  }

  /**
   The Stars round trip: paying an invoice that `PayStars` issued for a paid
   tier gives the buyer that tier for 30 days and records the stars paid.
   */
  lemma StarsRoundTrip(s: Store.State, uid: Store.UserId, t: Plans.Tier, chargeId: string, now: int)
    requires t != Plans.Free && uid in s.users
    ensures PayStars(uid, Plans.Key(t)).InvoiceSent?
    ensures var inv := PayStars(uid, Plans.Key(t)).invoice;
      var r := SuccessfulPayment(s, inv.userId, Some(inv.tier), chargeId, inv.amount, now);
      && r.users[uid].tier == Plans.Key(t)
      && r.users[uid].until == Some(now + RenewDays * Store.SecondsPerDay)
      && r.payments[|s.payments|].amount == Plans.PlanOf(t).price
      && r.payments[|s.payments|].currency == "XTR"
  {
    Plans.OnlyFreeIsFree(t);
  }
}

=== FILE: plans.dfy ===
/**
 The subscription plan registry: the four tiers of `config.py` with their
 prices and limits, and the lookup-with-fallback both stores perform on it.
 */
module Plans {
  import opened Wrappers

  datatype Tier = Free | Basic | Premium | Vip

  /**
   One row of the registry. A limit entry that is absent from the row, or
   present but not an integer, is `None`.
   */
  datatype Plan = Plan(
    name: string,
    price: int,
    priceRub: int,
    monthlyLimit: Option<int>,
    dailyLimit: Option<int>)

  /** The dictionary key under which a tier is registered. */
  function Key(t: Tier): string
  {
    match t
    case Free => "free"
    case Basic => "basic"
    case Premium => "premium"
    case Vip => "vip"
  }

  /** The position of a tier in the upgrade order. */
  function Rank(t: Tier): nat
  {
    match t
    case Free => 0
    case Basic => 1
    case Premium => 2
    case Vip => 3
  }

  /** The registry itself. */
  function PlanOf(t: Tier): Plan
  {
    match t
    case Free => Plan("Free", 0, 0, Some(5), None)
    case Basic => Plan("Basic", 79, 79, Some(100), None)
    case Premium => Plan("Premium", 159, 159, Some(500), None)
    case Vip => Plan("VIP", 229, 229, Some(9999), None)
  }

  /** The tier registered under `key`, if any. */
  function ParseTier(key: string): (r: Option<Tier>)
    ensures r.Some? ==> Key(r.value) == key
    ensures forall t :: Key(t) == key ==> r == Some(t)
  {
    if key == "free" then Some(Free)
    else if key == "basic" then Some(Basic)
    else if key == "premium" then Some(Premium)
    else if key == "vip" then Some(Vip)
    else None
  }

  /** `SUBSCRIPTION_PLANS.get(key)`. */
  function Lookup(key: string): (r: Option<Plan>)
    ensures r.Some? <==> exists t :: Key(t) == key
    ensures forall t :: Key(t) == key ==> r == Some(PlanOf(t))
  {
    match ParseTier(key)
    case Some(t) => Some(PlanOf(t))
    case None => None
  }

  /** `SUBSCRIPTION_PLANS.get(key, SUBSCRIPTION_PLANS["free"])`. */
  function LookupOrFree(key: string): (r: Plan)
    ensures forall t :: Key(t) == key ==> r == PlanOf(t)
    ensures (forall t :: Key(t) != key) ==> r == PlanOf(Free)
    ensures r.monthlyLimit.Some? && r.dailyLimit.None?
  {
    Lookup(key).GetOr(PlanOf(Free))
  }

  /** The registry has exactly the four keys free, basic, premium and vip. */
  lemma ExactlyFourTiers(key: string)
    ensures Lookup(key).Some? <==> key == "free" || key == "basic" || key == "premium" || key == "vip"
  {
    if key == "free" { assert Key(Free) == key; }
    if key == "basic" { assert Key(Basic) == key; }
    if key == "premium" { assert Key(Premium) == key; }
    if key == "vip" { assert Key(Vip) == key; }
  }

  /** Parsing a tier's own key gives the tier back, so distinct tiers have distinct keys. */
  lemma KeyRoundTrip(t: Tier)
    ensures ParseTier(Key(t)) == Some(t)
  {
  }

  /** Every plan's limit is stored as an integer and rises strictly with the tier. */
  lemma LimitsIncreaseWithTier(a: Tier, b: Tier)
    ensures PlanOf(a).monthlyLimit.Some? && PlanOf(b).monthlyLimit.Some?
    ensures Rank(a) < Rank(b) ==> PlanOf(a).monthlyLimit.value < PlanOf(b).monthlyLimit.value
  {
  }

  /** Prices rise strictly with the tier. */
  lemma PricesIncreaseWithTier(a: Tier, b: Tier)
    ensures Rank(a) < Rank(b) ==> PlanOf(a).price < PlanOf(b).price
  {
  }

  /** Free is the only plan without a positive price. */
  lemma OnlyFreeIsFree(t: Tier)
    ensures PlanOf(t).price <= 0 <==> t == Free
  {
  }

  /** Every plan quotes the same amount as its price and its rouble price. */
  lemma PriceIsRoublePrice(t: Tier)
    ensures PlanOf(t).price == PlanOf(t).priceRub
  {
  }

  /** No plan in the registry carries a daily limit entry. */
  lemma NoDailyLimitEntry(t: Tier)
    ensures PlanOf(t).dailyLimit.None?
  {
  }
}

=== FILE: prompts.dfy ===
/**
 Generation prompts, described by the inputs each handler puts into them.
 The wording of the prompt templates is not part of the model: two prompts
 are equal exactly when they were built from the same inputs.
 */
module Prompts {
  import opened Wrappers

  datatype Prompt =
    | NoPrompt                                   // the empty string a missing edit base defaults to
    | PostPrompt(topic: string, audience: string, style: string, cta: string, authorStyle: Option<string>)
    | StoryPrompt(vector: string, authorStyle: Option<string>)
    | IdeasPrompt(theme: string, authorStyle: Option<string>)
    | CaptionPrompt(task: string, authorStyle: Option<string>)
    | StylePrompt(examples: string)
    | EditPrompt(base: Prompt, instruction: string)

  /** Space, tab, line feed, carriage return, vertical tab and form feed: the part of what `str.strip()` removes that the model treats as space (not `\x1c`-`\x1f` or non-ASCII whitespace). */
  predicate IsSpace(c: char)
  {
    c == ' ' || c == '\t' || c == '\n' || c == '\r' || c == '\U{000B}' || c == '\U{000C}'
  }

  function TrimLeft(s: string): (r: string)
    ensures |r| <= |s| && r == s[|s| - |r|..]
    ensures |r| > 0 ==> !IsSpace(r[0])
    ensures forall i :: 0 <= i < |s| - |r| ==> IsSpace(s[i])
  {
    if |s| > 0 && IsSpace(s[0]) then TrimLeft(s[1..]) else s
  }

  function TrimRight(s: string): (r: string)
    ensures |r| <= |s| && r == s[..|r|]
    ensures |r| > 0 ==> !IsSpace(r[|r| - 1])
    ensures forall i :: |r| <= i < |s| ==> IsSpace(s[i])
  {
    if |s| > 0 && IsSpace(s[|s| - 1]) then TrimRight(s[..|s| - 1]) else s
  }

  /** `str.strip()`: the input without its leading and trailing whitespace. */
  function Strip(s: string): (r: string)
    ensures |r| > 0 ==> !IsSpace(r[0]) && !IsSpace(r[|r| - 1])
    ensures |r| <= |s|
    ensures var k := |s| - |TrimLeft(s)|; k + |r| <= |s| && r == s[k..k + |r|]
    ensures forall i :: 0 <= i < |s| - |TrimLeft(s)| ==> IsSpace(s[i])
    ensures forall i :: |s| - |TrimLeft(s)| + |r| <= i < |s| ==> IsSpace(s[i])
    ensures (forall i :: 0 <= i < |s| ==> !IsSpace(s[i])) ==> r == s
  {
    TrimRight(TrimLeft(s))
  }
}

=== FILE: store.dfy ===
/**
 The entitlement and quota store of the bot: users, per-day generation
 counters, notification settings, payments and generation history, with the
 helpers every handler calls. The SQLite tables become maps and sequences;
 a statement that matches no row changes nothing.
 */
module Store {
  import opened Wrappers
  import Plans
  import opened Prompts

  type UserId = int

  /** A calendar day (the server's local date string in the source). */
  type Day = int

  /** Timestamps are seconds; `timedelta(days = d)` is `d * SecondsPerDay`. */
  const SecondsPerDay: int := 86400

  /** The limit reported to administrators. */
  const AdminLimit: int := 999999

  /** The limit of a plan that carries no usable limit entry. */
  const FallbackLimit: int := 5

  /** Display defaults of `get_user_info` for empty columns. */
  const NoUsername: string := "не указан"
  const NoFirstName: string := "Пользователь"

  /** A row of `users`; an empty string stands for an empty or NULL text column. */
  datatype User = User(
    username: string,
    firstName: string,
    tier: string,
    until: Option<int>,
    bonus: int,
    isAdmin: bool)

  /** A row of `user_settings`: three notification switches and the saved author style. */
  datatype Settings = Settings(
    notifFeatures: int,
    notifPromos: int,
    notifReminders: int,
    userStyle: Option<string>)

  /** A row of `payments`. */
  datatype Payment = Payment(
    userId: UserId,
    provider: string,
    externalId: string,
    orderId: Option<string>,
    tier: string,
    amount: int,
    currency: string,
    status: string)

  /** A row of `generation_history` or `saved_content`. */
  datatype Generation = Generation(userId: UserId, kind: string, prompt: Prompt, content: string)

  datatype State = State(
    users: map<UserId, User>,
    counters: map<(UserId, Day), nat>,
    settings: map<UserId, Settings>,
    payments: seq<Payment>,
    history: seq<Generation>,
    saved: seq<Generation>)

  /** The store right after the tables are created. */
  const EmptyStore: State := State(map[], map[], map[], [], [], [])

  /** The column defaults of a fresh `user_settings` row. */
  const DefaultSettings: Settings := Settings(1, 1, 1, None)

  /** Every user has exactly one settings row and every settings row has a user. */
  predicate Wf(s: State)
  {
    s.settings.Keys == s.users.Keys
  }

  /** The tables other than users and settings are the same in both stores. */
  predicate SameRecords(s: State, r: State)
  {
    r.counters == s.counters && r.payments == s.payments && r.history == s.history && r.saved == s.saved
  }

  // ---------------------------------------------------------------------------
  // Users
  // ---------------------------------------------------------------------------

  /**
   Makes sure a user row exists before a handler uses it. An existing user is
   left alone. Otherwise a free user and a default settings row are inserted;
   if a settings row for that id already exists, the second insert fails, the
   uncommitted user insert is lost and the store is unchanged.
   */
  function GetOrCreateUser(s: State, uid: UserId, username: string, firstName: string): (r: State)
    ensures uid in s.users ==> r == s
    ensures uid !in s.users && uid in s.settings ==> r == s
    ensures uid !in s.users && uid !in s.settings ==>
      && uid in r.users && uid in r.settings
      && r.users[uid] == User(username, firstName, "free", None, 0, false)
      && r.settings[uid] == DefaultSettings
    ensures forall v :: v != uid ==> (v in r.users <==> v in s.users) && (v in r.settings <==> v in s.settings)
    ensures forall v :: v != uid && v in s.users ==> r.users[v] == s.users[v]
    ensures forall v :: v != uid && v in s.settings ==> r.settings[v] == s.settings[v]
    ensures SameRecords(s, r)
    ensures Wf(s) ==> Wf(r) && uid in r.users
  {
    if uid in s.users || uid in s.settings then s
    else
      s.(users := s.users[uid := User(username, firstName, "free", None, 0, false)],
         settings := s.settings[uid := DefaultSettings])
  }

  /** Calling `GetOrCreateUser` again, with any profile hints, changes nothing. */
  lemma GetOrCreateUserIdempotent(s: State, uid: UserId, u1: string, f1: string, u2: string, f2: string)
    ensures GetOrCreateUser(GetOrCreateUser(s, uid, u1, f1), uid, u2, f2) == GetOrCreateUser(s, uid, u1, f1)
  {
  }

  /**
   Administrator status: the configured administrator id (when it is not 0,
   which Python reads as unset) or the `is_admin` flag of the user's row.
   */
  predicate IsUserAdmin(s: State, adminId: int, uid: UserId)
  {
    (adminId != 0 && uid == adminId) || (uid in s.users && s.users[uid].isAdmin)
  }

  /** What `get_user_info` returns for a stored user. */
  datatype UserInfo = UserInfo(
    userId: UserId,
    username: string,
    firstName: string,
    tier: string,
    until: Option<int>,
    bonus: int,
    isAdmin: bool)

  /** A user's row with display defaults filled in for empty columns; `None` for an unknown user. */
  function GetUserInfo(s: State, uid: UserId): (r: Option<UserInfo>)
    ensures r.Some? <==> uid in s.users
    ensures r.Some? ==>
      && r.value.userId == uid
      && r.value.tier != ""
      && (s.users[uid].tier != "" ==> r.value.tier == s.users[uid].tier)
      && (s.users[uid].tier == "" ==> r.value.tier == Plans.Key(Plans.Free))
      && (s.users[uid].username != "" ==> r.value.username == s.users[uid].username)
      && (s.users[uid].username == "" ==> r.value.username == NoUsername)
      && (s.users[uid].firstName != "" ==> r.value.firstName == s.users[uid].firstName)
      && (s.users[uid].firstName == "" ==> r.value.firstName == NoFirstName)
      && r.value.until == s.users[uid].until
      && r.value.bonus == s.users[uid].bonus
      && r.value.isAdmin == s.users[uid].isAdmin
  {
    if uid !in s.users then None
    else
      var u := s.users[uid];
      Some(UserInfo(
        uid,
        if u.username == "" then NoUsername else u.username,
        if u.firstName == "" then NoFirstName else u.firstName,
        if u.tier == "" then "free" else u.tier,
        u.until, u.bonus, u.isAdmin))
  }

  /**
   A user created on first contact reads back as a free user with the
   display defaults, no bonus and no administrator flag.
   */
  lemma CreatedUserInfo(s: State, uid: UserId)
    requires uid !in s.users && uid !in s.settings
    ensures GetUserInfo(GetOrCreateUser(s, uid, "", ""), uid)
      == Some(UserInfo(uid, NoUsername, NoFirstName, Plans.Key(Plans.Free), None, 0, false))
  {
  }

  /**
   Without a configured administrator id, administrator status is exactly
   the flag `GetUserInfo` reports; creating a user never makes anyone an
   administrator.
   */
  lemma AdminStatusIsStoredFlag(s: State, adminId: int, uid: UserId, username: string, firstName: string)
    ensures IsUserAdmin(s, 0, uid) <==> GetUserInfo(s, uid).Some? && GetUserInfo(s, uid).value.isAdmin
    ensures adminId != 0 ==> IsUserAdmin(s, adminId, adminId)
    ensures forall v :: IsUserAdmin(GetOrCreateUser(s, uid, username, firstName), adminId, v) == IsUserAdmin(s, adminId, v)
  {
  }

  // ---------------------------------------------------------------------------
  // Quota
  // ---------------------------------------------------------------------------

  /**
   The daily allowance a plan row grants: its daily limit entry, else its
   monthly limit entry (the older name of the same quantity), else 5.
   */
  function PlanDailyLimit(p: Plans.Plan): (r: int)
    ensures p.dailyLimit.Some? ==> r == p.dailyLimit.value
    ensures p.dailyLimit.None? && p.monthlyLimit.Some? ==> r == p.monthlyLimit.value
    ensures p.dailyLimit.None? && p.monthlyLimit.None? ==> r == FallbackLimit
  {
    match p.dailyLimit
    case Some(d) => d
    case None => p.monthlyLimit.GetOr(FallbackLimit)
  }

  /** Since no registered plan has a daily limit entry, every tier's allowance is its monthly limit. */
  lemma RegistryAllowanceIsMonthlyLimit(t: Plans.Tier)
    ensures Plans.PlanOf(t).monthlyLimit.Some?
    ensures PlanDailyLimit(Plans.PlanOf(t)) == Plans.PlanOf(t).monthlyLimit.value
  {
    Plans.NoDailyLimitEntry(t);
    Plans.LimitsIncreaseWithTier(t, t);
  }

  /** The tier key the quota check reads: the stored tier, "free" for an unknown user. */
  function TierKeyOf(s: State, uid: UserId): string
  {
    match GetUserInfo(s, uid)
    case None => "free"
    case Some(info) => info.tier
  }

  /** A non-administrator's daily allowance: the plan of their tier, free when the tier is unknown. */
  function LimitOf(s: State, uid: UserId): (r: int)
    ensures forall t :: uid in s.users && s.users[uid].tier == Plans.Key(t) ==> r == Plans.PlanOf(t).monthlyLimit.value
    ensures Plans.Lookup(TierKeyOf(s, uid)).None? ==> r == Plans.PlanOf(Plans.Free).monthlyLimit.value
    ensures uid !in s.users ==> r == Plans.PlanOf(Plans.Free).monthlyLimit.value
    ensures uid in s.users && Plans.ParseTier(s.users[uid].tier).None? ==> r == Plans.PlanOf(Plans.Free).monthlyLimit.value
    ensures r in {5, 100, 500, 9999}
  {
    var key := TierKeyOf(s, uid);
    var t := Plans.ParseTier(key).GetOr(Plans.Free);
    RegistryAllowanceIsMonthlyLimit(t);
    PlanDailyLimit(Plans.LookupOrFree(key))
  }

  /** Generations counted for `uid` on `day`; 0 before the first one. */
  function Used(s: State, uid: UserId, day: Day): nat
  {
    if (uid, day) in s.counters then s.counters[(uid, day)] else 0
  }

  datatype LimitCheck = LimitCheck(allowed: bool, used: int, limit: int)

  /**
   The quota check: administrators always pass with a nominal limit and no
   usage; everyone else passes while today's count is below their tier's
   allowance. The check reads and never writes.
   */
  function CheckGenerationLimit(s: State, adminId: int, uid: UserId, today: Day): (r: LimitCheck)
    ensures IsUserAdmin(s, adminId, uid) ==> r == LimitCheck(true, 0, AdminLimit)
    ensures !IsUserAdmin(s, adminId, uid) ==>
      && r.used == Used(s, uid, today)
      && r.limit == LimitOf(s, uid)
      && (r.allowed <==> Used(s, uid, today) < LimitOf(s, uid))
    ensures !IsUserAdmin(s, adminId, uid) ==>
      (r.allowed <==> Used(IncrementGenerationCounter(s, uid, today), uid, today) <= LimitOf(s, uid))
  {
    if IsUserAdmin(s, adminId, uid) then LimitCheck(true, 0, AdminLimit)
    else
      var used := Used(s, uid, today);
      var limit := LimitOf(s, uid);
      LimitCheck(used < limit, used, limit)
  }

  /**
   Counts one generation for `uid` today, creating the user first when the
   row is missing. The counter for (uid, today) goes up by one and no other
   counter moves; nobody's allowance or administrator status changes.
   */
  function IncrementGenerationCounter(s: State, uid: UserId, today: Day): (r: State)
    ensures Used(r, uid, today) == Used(s, uid, today) + 1
    ensures forall u, d :: (u, d) != (uid, today) ==> Used(r, u, d) == Used(s, u, d)
    ensures r.counters.Keys == s.counters.Keys + {(uid, today)}
    ensures uid in s.users ==> r.users == s.users && r.settings == s.settings
    ensures uid in s.settings ==> r.settings == s.settings
    ensures r.payments == s.payments && r.history == s.history && r.saved == s.saved
    ensures Wf(s) ==> Wf(r) && uid in r.users
  {
    var s1 := if uid in s.users then s else GetOrCreateUser(s, uid, "", "");
    s1.(counters := s1.counters[(uid, today) := Used(s1, uid, today) + 1])
  }

  /** Nobody's allowance or administrator status differs between the two stores. */
  ghost predicate SameEntitlements(s: State, r: State)
  {
    && (forall v :: LimitOf(r, v) == LimitOf(s, v))
    && (forall a, v :: IsUserAdmin(r, a, v) == IsUserAdmin(s, a, v))
  }

  /** Entitlements are read from the users table alone. */
  lemma SameUsersSameEntitlements(s: State, r: State)
    requires r.users == s.users
    ensures SameEntitlements(s, r)
  {
    forall v ensures LimitOf(r, v) == LimitOf(s, v) {
      assert GetUserInfo(r, v) == GetUserInfo(s, v);
    }
  }

  /**
   Counting a generation changes nobody's allowance or administrator status,
   not even when it has to create the user: an unknown user and a fresh free
   user get the same allowance, and neither is an administrator by row.
   */
  lemma IncrementKeepsEntitlements(s: State, uid: UserId, today: Day)
    ensures SameEntitlements(s, IncrementGenerationCounter(s, uid, today))
  {
    var r := IncrementGenerationCounter(s, uid, today);
    forall v ensures LimitOf(r, v) == LimitOf(s, v) {
      if v != uid || uid in s.users || uid in s.settings {
        assert GetUserInfo(r, v) == GetUserInfo(s, v);
      } else {
        assert r.users[uid].tier == Plans.Key(Plans.Free);
      }
    }
  }

  /**
   The check-then-increment pair of a consuming step is sound on its own: a
   passing check of a non-administrator is followed by a count that is still
   within the allowance, and a failing one means the allowance is used up.
   */
  lemma CheckThenIncrementStaysWithinLimit(s: State, adminId: int, uid: UserId, today: Day)
    requires !IsUserAdmin(s, adminId, uid)
    ensures CheckGenerationLimit(s, adminId, uid, today).allowed ==>
      Used(IncrementGenerationCounter(s, uid, today), uid, today) <= LimitOf(s, uid)
    ensures !CheckGenerationLimit(s, adminId, uid, today).allowed ==> Used(s, uid, today) >= LimitOf(s, uid)
  {
  }

  // ---------------------------------------------------------------------------
  // Settings
  // ---------------------------------------------------------------------------

  /** The three switch columns `toggle_notification` accepts. */
  predicate IsNotifField(field: string)
  {
    field == "notif_features" || field == "notif_promos" || field == "notif_reminders"
  }

  function NotifValue(st: Settings, field: string): int
    requires IsNotifField(field)
  {
    if field == "notif_features" then st.notifFeatures
    else if field == "notif_promos" then st.notifPromos
    else st.notifReminders
  }

  function WithNotifValue(st: Settings, field: string, v: int): (r: Settings)
    requires IsNotifField(field)
    ensures NotifValue(r, field) == v
    ensures forall g :: IsNotifField(g) && g != field ==> NotifValue(r, g) == NotifValue(st, g)
    ensures r.userStyle == st.userStyle
  {
    if field == "notif_features" then st.(notifFeatures := v)
    else if field == "notif_promos" then st.(notifPromos := v)
    else st.(notifReminders := v)
  }

  /**
   Flips one notification switch: a non-zero value becomes 0 and 0 becomes 1;
   the result says whether the switch is now on. An unknown field name is
   refused with false; with no settings row nothing is updated and the
   reported value is the flip of the assumed default 1, that is false.
   */
  function ToggleNotification(s: State, uid: UserId, field: string): (r: (State, bool))
    ensures !IsNotifField(field) || uid !in s.settings ==> r == (s, false)
    ensures IsNotifField(field) && uid in s.settings ==>
      && r.0.users == s.users && SameRecords(s, r.0)
      && r.0.settings.Keys == s.settings.Keys
      && (forall v :: v in s.settings && v != uid ==> r.0.settings[v] == s.settings[v])
      && (NotifValue(s.settings[uid], field) == 0 <==> NotifValue(r.0.settings[uid], field) == 1)
      && (NotifValue(s.settings[uid], field) != 0 <==> NotifValue(r.0.settings[uid], field) == 0)
      && (r.1 <==> NotifValue(r.0.settings[uid], field) == 1)
      && (forall g :: IsNotifField(g) && g != field ==>
            NotifValue(r.0.settings[uid], g) == NotifValue(s.settings[uid], g))
      && r.0.settings[uid].userStyle == s.settings[uid].userStyle
  {
    if !IsNotifField(field) || uid !in s.settings then (s, false)
    else
      var current := NotifValue(s.settings[uid], field);
      var newValue := if current != 0 then 0 else 1;
      (s.(settings := s.settings[uid := WithNotifValue(s.settings[uid], field, newValue)]), newValue != 0)
  }

  /** The three switches (features, promos, reminders); all on when there is no settings row. */
  function GetNotifications(s: State, uid: UserId): (r: (int, int, int))
    ensures uid !in s.settings ==> r == (1, 1, 1)
    ensures uid in s.settings ==>
      r == (NotifValue(s.settings[uid], "notif_features"),
            NotifValue(s.settings[uid], "notif_promos"),
            NotifValue(s.settings[uid], "notif_reminders"))
  {
    if uid !in s.settings then (1, 1, 1)
    else
      var st := s.settings[uid];
      (st.notifFeatures, st.notifPromos, st.notifReminders)
  }

  /** Toggling a 0/1 switch twice gives back the store it started from. */
  lemma ToggleTwiceRestores(s: State, uid: UserId, field: string)
    requires IsNotifField(field) && uid in s.settings
    requires NotifValue(s.settings[uid], field) in {0, 1}
    ensures ToggleNotification(ToggleNotification(s, uid, field).0, uid, field).0 == s
  {
    var st := s.settings[uid];
    var s2 := ToggleNotification(ToggleNotification(s, uid, field).0, uid, field).0;
    assert s2.settings[uid] == st;
    assert s2.settings == s.settings;
  }

  /** The value a toggle reports is what the notification menu shows afterwards. */
  lemma ToggleReportsNewSwitch(s: State, uid: UserId, field: string)
    requires IsNotifField(field) && uid in s.settings
    ensures var (r, on) := ToggleNotification(s, uid, field);
      var (f, p, m) := GetNotifications(r, uid);
      on <==> (if field == "notif_features" then f else if field == "notif_promos" then p else m) == 1
  {
  }

  /** The author style saved by the style analysis, if any non-empty one is stored. */
  function UserStyle(s: State, uid: UserId): (r: Option<string>)
    ensures r.Some? ==> uid in s.settings && s.settings[uid].userStyle == r && r.value != ""
    ensures uid in s.settings && Truthy(s.settings[uid].userStyle) ==> r == s.settings[uid].userStyle
  {
    if uid in s.settings && Truthy(s.settings[uid].userStyle) then s.settings[uid].userStyle else None
  }

  /** Stores an author style in the user's settings row; without a row nothing changes. */
  function SaveUserStyle(s: State, uid: UserId, style: string): (r: State)
    ensures uid !in s.settings ==> r == s
    ensures uid in s.settings ==> r.settings == s.settings[uid := s.settings[uid].(userStyle := Some(style))]
    ensures r.users == s.users && SameRecords(s, r)
    ensures style != "" ==> UserStyle(r, uid) == (if uid in s.settings then Some(style) else None)
  {
    if uid in s.settings then s.(settings := s.settings[uid := s.settings[uid].(userStyle := Some(style))])
    else s
  }

  /** Appends a generation to the history. */
  function SaveGeneration(s: State, uid: UserId, kind: string, prompt: Prompt, content: string): (r: State)
    ensures r.history == s.history + [Generation(uid, kind, prompt, content)]
    ensures r.users == s.users && r.settings == s.settings && r.counters == s.counters
    ensures r.payments == s.payments && r.saved == s.saved
  {
    s.(history := s.history + [Generation(uid, kind, prompt, content)])
  }

  /** Appends a generation to the saved content. */
  function SaveContent(s: State, uid: UserId, kind: string, prompt: Prompt, content: string): (r: State)
    ensures r.saved == s.saved + [Generation(uid, kind, prompt, content)]
    ensures r.users == s.users && r.settings == s.settings && r.counters == s.counters
    ensures r.payments == s.payments && r.history == s.history
  {
    s.(saved := s.saved + [Generation(uid, kind, prompt, content)])
  }

  // ---------------------------------------------------------------------------
  // Subscriptions
  // ---------------------------------------------------------------------------

  /**
   Overwrites a user's tier and sets the end of the subscription `days` days
   after `now`, whatever the previous tier or end was; an unknown user is
   left out (the update matches no row).
   */
  function UpdateSubscription(s: State, uid: UserId, tier: string, days: int, now: int): (r: State)
    ensures uid !in s.users ==> r == s
    ensures uid in s.users ==>
      && r.users.Keys == s.users.Keys
      && r.users[uid].tier == tier
      && r.users[uid].until == Some(now + days * SecondsPerDay)
      && r.users[uid].username == s.users[uid].username
      && r.users[uid].firstName == s.users[uid].firstName
      && r.users[uid].bonus == s.users[uid].bonus
      && r.users[uid].isAdmin == s.users[uid].isAdmin
    ensures forall v :: v in s.users && v != uid ==> r.users[v] == s.users[v]
    ensures r.settings == s.settings && SameRecords(s, r)
    ensures Wf(s) ==> Wf(r)
  {
    if uid in s.users then
      s.(users := s.users[uid := s.users[uid].(tier := tier, until := Some(now + days * SecondsPerDay))])
    else s
  }

  /** The overwrite is unconditional: of two subscription updates, only the later one is visible. */
  lemma LaterSubscriptionWins(s: State, uid: UserId, t1: string, d1: int, n1: int, t2: string, d2: int, n2: int)
    ensures UpdateSubscription(UpdateSubscription(s, uid, t1, d1, n1), uid, t2, d2, n2)
         == UpdateSubscription(s, uid, t2, d2, n2)
  {
  }
}

=== FILE: wrappers.dfy ===
/** Optional values shared by every module of the model. */
module Wrappers {

  /** An optional value: a missing row, an absent dictionary key, a null column. */
  datatype Option<+T> = None | Some(value: T) {

    /** The wrapped value, or `default` when there is none. */
    function GetOr(default: T): (r: T)
      ensures Some? ==> r == value
      ensures None? ==> r == default
    {
      match this
      case Some(v) => v
      case None => default
    }
  }

  /** Python truthiness of an optional string: present and non-empty. */
  predicate Truthy(s: Option<string>)
  {
    s.Some? && s.value != ""
  }
}
